=== FILE: README.md ===
# mentormind front-end — decision logic in Dafny

mentormind is a React front-end for an SSC CGL exam-preparation chat
assistant. A student logs in with a phone number and a one-time password
(OTP), or registers. They then ask questions in a chat. The answers stream
back as `data: ` lines carrying `chunk`, `final` or `error` records. A final
answer may be an explanation with collapsible concepts, or a practice quiz
that is scored after submission.

This project models the decision logic under the markup as immutable
datatypes and pure functions:

- `ChatStream` (`src/pages/Chat.jsx`):
  - each body read is split into lines;
  - `data: ` lines are decoded into events;
  - events are folded into the conversation and the streaming buffer;
  - a whole send runs, with its quota decrement and transport-error turn.
- `ChatRender` (`src/components/features/ChatMessages.jsx`):
  - the payload classifier of `ResponseRenderer`;
  - the explanation view and its one-slot accordion;
  - the row order of `ChatMessages`.
- `Practice` (same file): the quiz of `PracticeResponse`, covering decoding, selection, the submit gate and the score.
- `ChatInput` (`src/components/features/ChatInput.jsx`): the submit guard, the suggestion popover and the trailing button.
- `Session` (`src/utils/auth.js`): local storage as a map, logout, token expiry, authentication, `getUser`, and the global session-error interceptor.
- `AuthApi` (`src/api/auth.js`): phone formatting, the two interceptors of the `api` instance, and the result mapping of every call.
- `LoginPage` and `RegisterPage` (`src/components/`): the OTP login and registration state machines.
- Supporting modules:
  - `JsValues`: JavaScript values with truthiness, `||`, property access, `===` and `String()`;
  - `Text`: `trim`, `split`, `join`, `replace(/\D/g, '')`;
  - `Http`: axios outcomes;
  - `Wrappers`: `Option`.

Foreign calls are parameters:

- `JSON.parse` is a `string -> Option<JsValue>` (`None` is a SyntaxError);
- `JSON.stringify` is a `JsValue -> string`;
- `Date` parsing is a `string -> Option<int>` (`None` is an Invalid Date);
- each HTTP request is its `Outcome`: the resolved body, or a rejection with an optional response;
- the current time is an integer `now`;
- `localStorage` is a `map<string, string>`;
- `window.location` and `navigate` are a `location` field.

Notable behaviours of the code:

- **Type tags.** Stream `type` tags are compared with `===`. A payload's `type` is compared after `String()` conversion, so an array `['practice']` selects the quiz. Neither comparison folds case or matches substrings.
- **Quiz matching.** Answers are compared with `===` on option ids. There is no letter or positional matching.
- **Submitting.** The quiz can be submitted only when the number of answered keys equals the number of questions. Partial answers are not accepted.
- **Score.** The score is a plain count; no percentage is shown.
- **Reads.** Lines are not buffered across body reads, so a line split between two reads is lost (`ChatStream.SplitDataLineIsLost`).
- **Error events.** An `error` event does not clear the streaming buffer.
- **Final events.** A `final` event does not reset the accumulated text. A chunk arriving after a final therefore shows the earlier chunks again.
- **Error turns.** The synthetic error turn has type `'text'`, which names no component, so it renders as pretty-printed JSON (`ChatRender.ErrorTurnShownAsJson`).

## Model

| member | source | states |
|---|---|---|
| Text.Trim | src/components/features/ChatInput.jsx:26 | `trim()` yields a slice no longer than the input with no whitespace at either end, and it is empty exactly when the input is all whitespace |
| Text.Split | src/pages/Chat.jsx:121 | `split('\n')` yields at least one piece and no piece contains the separator |
| Text.JoinSplit | src/pages/Chat.jsx:121 | joining the pieces of a split restores the read exactly, so splitting loses no text |
| Text.SplitJoin | src/pages/Chat.jsx:121 | splitting a join of separator-free pieces gives back the pieces |
| Text.DigitsOnly | src/components/LoginPage.jsx:191 | `replace(/\D/g, '')` keeps only digits, is the identity on digit strings and is empty on digit-free input |
| Text.DigitsOnlyKeepsEveryDigit | src/components/LoginPage.jsx:191 | every digit of the input is kept as many times as it occurs |
| Text.DigitsOnlyAppend | src/components/LoginPage.jsx:191 | the digits of a concatenation are the digits of each part, one after the other, so the digits keep their order |
| Text.Concat | src/components/LoginPage.jsx:63 | `join('')` of single-character digit boxes is a digit string with one character per box |
| Session.Logout | src/utils/auth.js:3-8 | removes exactly `token`, `user` and `expires_at`, every other stored key keeps its value, and the location becomes /login |
| Session.LogoutIdempotent | src/utils/auth.js:3-8 | logging out twice equals logging out once |
| Session.IsTokenExpired | src/utils/auth.js:24-28 | a missing or empty expiry is expired; a parsed expiry is passed iff now is strictly after it; an unparsable one compares false and is not expired |
| Session.ExpiryIsMonotone | src/utils/auth.js:27 | once expired, a session stays expired at every later instant |
| Session.NotExpiredAtTheInstant | src/utils/auth.js:27 | at the exact expiry instant the token is still valid |
| Session.IsAuthenticated | src/utils/auth.js:30-33 | authenticated iff a non-empty token is stored and it has not expired |
| Session.LoggedOutIsUnauthenticated | src/utils/auth.js:3-8 | after a logout the browser is never authenticated |
| Session.GetUser | src/utils/auth.js:14-22 | null without a stored user, the parsed user when it parses, and a logout with null on a parse failure |
| Session.InterceptSessionError | src/utils/auth.js:38-67 | logs out exactly for 401 with SESSION_INVALIDATED or SESSION_EXPIRED, or 403 with INVALID_TOKEN; every error is rejected unchanged |
| AuthApi.FormatPhone | src/api/auth.js:46 | the result starts with +91; the input is returned unchanged iff it already starts with +91, else +91 is prefixed |
| AuthApi.FormatPhoneIdempotent | src/api/auth.js:46 | formatting twice equals formatting once |
| AuthApi.InterceptRequest | src/api/auth.js:15-32 | no token: the request goes out unchanged; an expired token: logout and rejection with 'Session expired'; otherwise the request gets `Authorization: Bearer <token>` and every other header is kept |
| AuthApi.AuthorizedOnlyWhenAuthenticated | src/api/auth.js:15-32 | a request that goes out with an Authorization header implies the browser is authenticated at that instant |
| AuthApi.InterceptApiError | src/api/auth.js:35-43 | logs out iff the status is 401 or 403, and rejects every error unchanged |
| AuthApi.SessionEndingErrorsLogOutApi | src/api/auth.js:38-41 | every error that ends the session for the global interceptor also logs out through this interceptor |
| AuthApi.ThroughApi | src/api/auth.js:14-43 | an expired stored token logs out and the call fails without a response; otherwise the server's outcome is delivered, and a 401 or 403 rejection logs out |
| AuthApi.ThroughApiLogsOutOnlyOnAuthFailure | src/api/auth.js:14-43 | a call through the `api` instance either leaves the browser alone or logs out, and logs out only for an expired token or a 401/403 answer |
| AuthApi.WrapCall | src/api/auth.js:49-64 | success passes the body through; a failure carries the server's `error` when it is truthy, else the call's fallback text; a failure's error is always truthy |
| AuthApi.SendOtpBody | src/api/auth.js:51-53 | the send-verification body holds exactly the formatted phone number |
| AuthApi.SendOtp | src/api/auth.js:49-64 | success carries the response body; a failure carries the server's truthy `error`, else 'Failed to send OTP' |
| AuthApi.VerifyOtpBody | src/api/auth.js:69-72 | the verify body holds exactly the formatted phone number and the code |
| AuthApi.VerifyOtp | src/api/auth.js:67-83 | success carries the response body the page reads `isExistingUser` from; a failure carries the server's truthy `error`, else 'Failed to verify OTP' |
| AuthApi.RegisterBody | src/api/auth.js:88-91 | a body exists iff a phone number is given; it has the same keys, and only `phone_number` differs, holding the formatted number |
| AuthApi.RegisterUser | src/api/auth.js:86-104 | without a phone number the call fails with 'Failed to register user'; otherwise the outcome is mapped like any call |
| AuthApi.LoginBody | src/api/auth.js:109-113 | the login body holds exactly the formatted phone, the OTP code and the force flag |
| AuthApi.LoginUser | src/api/auth.js:107-162 | a truthy `success` yields exactly token, expiry and user; a falsy one yields `error` or 'Login failed'; 404 yields the register text; 409 throws exactly when the body or its `deviceInfo` is missing, and otherwise yields ACTIVE_SESSION_EXISTS with that device's browser, os and last login time; a throw or a device only ever comes from 409; anything else yields the server error or 'Failed to login' |
| AuthApi.ActiveSession | src/api/auth.js:144-155 | throws exactly when the body or its `deviceInfo` is missing; otherwise ACTIVE_SESSION_EXISTS with the device's browser, os and last login time |
| AuthApi.LogoutUser | src/api/auth.js:165-177 | a logout the server accepted clears the session; a 401 or 403 refusal also logs out through the interceptor; any other failure with a valid session leaves the browser alone and reports the error or 'Failed to logout' |
| AuthApi.LogoutUserSignsOut | src/api/auth.js:165-177 | after an accepted logout, a 401/403 refusal or an expired token, the browser is not authenticated |
| AuthApi.GetCurrentUser | src/api/auth.js:181-188 | `null` without a stored user or when it does not parse; otherwise the parsed user |
| AuthApi.CurrentUserAgreesWithGetUser | src/api/auth.js:181-188 | `getCurrentUser` returns the same user as `getUser`, and only `getUser` logs out, only when the result is null |
| AuthApi.IsAuthenticatedHere | src/api/auth.js:191-194 | this module's `isAuthenticated` agrees with the session helper's on every store and instant |
| ChatStream.ErrorMessage | src/pages/Chat.jsx:157-168 | the error turn is an assistant turn with type 'text', subject 'Error' and the text under `content.explanation` |
| ChatStream.Dispatch | src/pages/Chat.jsx:128-141 | null records yield no event; each event kind is chosen iff `type` is exactly 'chunk', 'final' or 'error'; the event carries `content` |
| ChatStream.LineEvent | src/pages/Chat.jsx:123-126 | only lines starting with `data: ` that parse yield an event, decided by the parsed record |
| ChatStream.DataLineEvent | src/pages/Chat.jsx:124-126 | a data line's event depends only on the text after the six-character prefix |
| ChatStream.LineEvents | src/pages/Chat.jsx:123-126 | a line yields at most one event: the event its `data: ` payload decodes to, or nothing when there is none |
| ChatStream.LinesEventsAppend | src/pages/Chat.jsx:123-146 | the events of concatenated line lists are the concatenated events |
| ChatStream.SkippedLineIsInvisible | src/pages/Chat.jsx:125-144 | a line that yields no event does not change the events of the lines around it, nor their order |
| ChatStream.ReadsAreIndependent | src/pages/Chat.jsx:116-121 | the events of two batches of reads are each batch's events, one after the other |
| ChatStream.SplitDataLineIsLost | src/pages/Chat.jsx:120-124 | a data line read whole yields its event, but the same line split across two reads yields none |
| ChatStream.Apply | src/pages/Chat.jsx:128-141 | a chunk extends and shows the accumulated text; a final commits one assistant turn and empties the buffer; an error commits the error turn and leaves the buffer; anything else changes nothing; the conversation only grows |
| ChatStream.ApplyAllAppend | src/pages/Chat.jsx:116-147 | folding two event lists equals folding one after the other |
| ChatStream.ApplyAllCommits | src/pages/Chat.jsx:132-141 | the conversation grows by exactly the final and error turns, in arrival order |
| ChatStream.ApplyAllText | src/pages/Chat.jsx:114-131 | the accumulated text is the in-order concatenation of every chunk, never reset by a final |
| ChatStream.StreamingShowsText | src/pages/Chat.jsx:130-138 | the buffer is always empty or the whole accumulated text |
| ChatStream.ChunksConcatenate | src/pages/Chat.jsx:114-131 | after k > 0 chunks the buffer shows their concatenation and nothing is committed |
| ChatStream.ChunksThenFinal | src/pages/Chat.jsx:128-138 | chunks then a final commit exactly one assistant turn with the final content and leave the buffer empty |
| ChatStream.ConsumeLine | src/pages/Chat.jsx:123-145 | one iteration of the line loop applies exactly that line's event, if any |
| ChatStream.ConsumeRead | src/pages/Chat.jsx:120-146 | one read's lines apply exactly that read's decoded events, in order |
| ChatStream.Consume | src/pages/Chat.jsx:116-147 | the read loop applies exactly the decoded events of all reads, in order |
| ChatStream.InitialChat | src/pages/Chat.jsx:10-13 | the page starts with no turns, nothing loading or streaming and 10 queries, so the first send shows only the user's turn and leaves 9 |
| ChatStream.BeginSend | src/pages/Chat.jsx:85-96 | loading starts, the buffer empties, the quota drops by one only when positive, and the user's turn is appended |
| ChatStream.Send | src/pages/Chat.jsx:83-155 | loading always ends false; the quota never goes below zero; the user's turn comes first; a transport failure ends the conversation with the fixed error turn |
| ChatStream.SendCommitsInOrder | src/pages/Chat.jsx:83-155 | a send commits the user turn, then the turns of the final and error events, then the transport error turn if any; the buffer is empty or the chunk text |
| ChatStream.TwoChunksThenFinal | src/pages/Chat.jsx:128-138 | two chunks then a final commit one assistant turn with the final text and leave the buffer empty |
| ChatRender.Classify | src/components/features/ChatMessages.jsx:218-271 | streaming first, then strings as text, then falsy or non-object values as invalid, then a `type` whose `String()` form is exactly 'explanation' or 'practice', and every other object or array as pretty JSON |
| ChatRender.StringTagMatchesExactly | src/components/features/ChatMessages.jsx:249-254 | a string tag selects a component iff it is spelled exactly like the component's key |
| ChatRender.ArrayTagSelectsComponent | src/components/features/ChatMessages.jsx:249-254 | an array tag holding a component's name selects that component |
| ChatRender.ErrorTurnShownAsJson | src/components/features/ChatMessages.jsx:254-264 | the stream's error turn is shown as pretty-printed JSON |
| ChatRender.ExplanationOf | src/components/features/ChatMessages.jsx:37-115 | missing content iff `content` is falsy; the explanation renders iff the content is truthy, the title and lead are renderable, every concept renders and the tip and mistake lists render; the render throws when the topic or lead is an object, when `key_concepts` is present but not an array or holds a null, or when `tips` or `common_mistakes` has a positive length but is not an array; a rendered title is `topic` or 'Topic Explanation' and the lead is `introduction` or else `explanation` |
| ChatRender.PlainExplanationRenders | src/components/features/ChatMessages.jsx:37-115 | an explanation with a string topic and lead and no lists renders with exactly that topic and lead |
| ChatRender.ClosedAccordionStillRenders | src/components/features/ChatMessages.jsx:57-105 | closing every concept never makes a working explanation throw and shows the same title and lead |
| ChatRender.StringConceptsThrow | src/components/features/ChatMessages.jsx:57 | a string `key_concepts` makes the explanation throw, whatever else it holds |
| ChatRender.Toggle | src/components/features/ChatMessages.jsx:60-67 | clicking concept i expands it iff it was collapsed, and every other concept ends collapsed |
| ChatRender.ToggleTwice | src/components/features/ChatMessages.jsx:60 | clicking the same concept twice restores the accordion |
| ChatRender.Rows | src/components/features/ChatMessages.jsx:309-365 | no messages show only the welcome row; otherwise the turns in order, then the streaming row iff the buffer is non-empty, then the loading row iff loading with an empty buffer |
| ChatRender.StreamingAndLoadingExclusive | src/components/features/ChatMessages.jsx:350-365 | the streaming row and the loading row never show together |
| Practice.DecodeQuestion | src/components/features/ChatMessages.jsx:147-193 | a question renders iff it is not null, its text is renderable, its options are an array and every option is non-null with renderable id and text; it keeps id, correct answer, explanation and the id of each option in order |
| Practice.DecodeAll | src/components/features/ChatMessages.jsx:147 | all questions decode iff each does, keeping order and count |
| Practice.PracticeOf | src/components/features/ChatMessages.jsx:118-215 | the no-questions view iff `questions.length` is falsy; a quiz has an array of questions, one decoded question per entry in order, a renderable heading, and renderable explanations once results show; every such payload gives the quiz, and anything else throws |
| Practice.ResultsKeepTheQuestions | src/components/features/ChatMessages.jsx:147-193 | a quiz that renders with its results showed the same questions before them |
| Practice.ObjectQuestionTextThrows | src/components/features/ChatMessages.jsx:162 | a question whose text is an object makes the whole quiz throw |
| Practice.Select | src/components/features/ChatMessages.jsx:128-132 | while answering, sets the question's answer, overwriting an earlier one and leaving all others; after results, nothing changes |
| Practice.Submit | src/components/features/ChatMessages.jsx:196-199 | answers are unchanged; results show iff they already did or the number of answered keys equals the number of questions |
| Practice.CountCorrectCounts | src/components/features/ChatMessages.jsx:136-137 | the `reduce` counts exactly the positions whose stored answer strictly equals the correct answer |
| Practice.Score | src/components/features/ChatMessages.jsx:134-138 | zero before results; after them, exactly the number of questions answered correctly, never more than the number of questions |
| Practice.FullMarksIff | src/components/features/ChatMessages.jsx:134-138 | full marks iff every question's stored answer strictly equals its correct answer |
| Practice.ZeroMarksIff | src/components/features/ChatMessages.jsx:134-138 | zero marks iff no stored answer is correct |
| Practice.QuestionKeys | src/components/features/ChatMessages.jsx:130 | every question's id key is in the set, which has at most one key per question |
| Practice.SelectStaysWithin | src/components/features/ChatMessages.jsx:168 | selecting through a question's own buttons keeps every answer keyed by a question of the quiz |
| Practice.SubmitNeedsEveryAnswer | src/components/features/ChatMessages.jsx:199 | when submit is enabled, every question has a stored answer |
| Practice.EmptyAnswersCannotSubmit | src/components/features/ChatMessages.jsx:199 | a quiz with no answers stays unsubmitted |
| ChatInput.Submit | src/components/features/ChatInput.jsx:24-31 | sends iff the trimmed text is non-empty and the input is enabled; sends the untrimmed text, then empties the box and hides suggestions; otherwise nothing changes |
| ChatInput.Type | src/components/features/ChatInput.jsx:68 | typing replaces only the text, and an enabled submit then sends exactly what was typed unless it is blank |
| ChatInput.PlusClick | src/components/features/ChatInput.jsx:33-38 | when enabled, flips the popover and focuses; when disabled, nothing changes |
| ChatInput.PickSuggestion | src/components/features/ChatInput.jsx:50-53 | the box holds the suggestion's label and the popover closes |
| ChatInput.Trailing | src/components/features/ChatInput.jsx:84-113 | no button iff disabled; the plus button iff enabled with a blank message; otherwise the send button |
| ChatInput.SendButtonIffSubmitSends | src/components/features/ChatInput.jsx:24-31 | the send button shows exactly when submitting would send |
| ChatInput.PickedSuggestionIsSendable | src/components/features/ChatInput.jsx:4-17 | every suggestion, once picked, is sent as its label |
| LoginPage.EmptyOtp | src/components/LoginPage.jsx:11 | six empty boxes |
| LoginPage.Initial | src/components/LoginPage.jsx:7-14 | the page mounts on phone entry with an empty number and error, six empty boxes, and a countdown that stays at 24 until an OTP is sent |
| LoginPage.EditPhone | src/components/LoginPage.jsx:191 | the phone field holds the digits typed, in order, and nothing else changes |
| LoginPage.SendOtp | src/components/LoginPage.jsx:26-47 | requests iff the phone has exactly ten characters, else only sets the error; a request clears the register prompt and leaves the browser as the `api` interceptors left it; success shows the boxes with the timer at 24; failure shows the call's own error, which is 'Failed to send OTP' after an expired token was logged out |
| LoginPage.OtpChange | src/components/LoginPage.jsx:49-65 | values longer than one digit are ignored; otherwise only the given box changes; verification fires iff box 5 gets a digit and no box is empty, with the boxes joined in order |
| LoginPage.OtpChangeKeepsSixDigits | src/components/LoginPage.jsx:49-65 | typing keeps six boxes of at most one digit, and an auto-verified code is six digits |
| LoginPage.AutoVerifyMatchesButton | src/components/LoginPage.jsx:254-256 | typing verifies on its own only when the manual verify button would be enabled, and with the joined boxes |
| LoginPage.HandleLogin | src/components/LoginPage.jsx:68-103 | success stores token, expiry and serialised user and goes to /chat; 'User not found' shows the register prompt and keeps the boxes; other failures show the error or 'Login failed' and empty the boxes; a throw shows the fixed text and empties them |
| LoginPage.VerifyOtp | src/components/LoginPage.jsx:68-103 | an expired stored token logs out and shows 'Failed to login' with empty boxes; otherwise the result is `loginUser`'s mapping of the answer handled as above, in the browser the interceptors left: 401 or 403 logs out, 404 shows the register prompt, 409 empties the boxes and shows ACTIVE_SESSION_EXISTS or, without device information, the fixed verify-failed text, and any other rejection empties the boxes and shows the server's error or 'Failed to login' |
| LoginPage.LoginAuthenticates | src/components/LoginPage.jsx:80-87 | after a successful login the browser is authenticated at every instant up to the stored expiry |
| LoginPage.Tick | src/components/LoginPage.jsx:16-24 | the timer drops by one only while an OTP was sent and it is positive |
| LoginPage.CountdownReachesZero | src/components/LoginPage.jsx:16-24 | after n ticks the timer is timer − n, or 0 once run out, and nothing else changes |
| LoginPage.Resend | src/components/LoginPage.jsx:264-265 | resend sends again only when the timer is 0 |
| LoginPage.GoBack | src/components/LoginPage.jsx:161-165 | returns to phone entry with empty boxes; the number, countdown, error and browser are kept |
| LoginPage.EditNumber | src/components/LoginPage.jsx:233 | returns to phone entry and changes nothing else |
| LoginPage.RegisterHandoff | src/components/LoginPage.jsx:105-112 | goes to /register with the phone number prefixed by +91 and the joined boxes as the verified code |
| LoginPage.ScreenOf | src/components/LoginPage.jsx:145-178 | the register prompt wins, then the OTP step iff an OTP was sent |
| RegisterPage.Initial | src/components/RegisterPage.jsx:19-36 | the page mounts on the phone step without a back button, with an empty form that fails the name check first, six empty boxes and an idle countdown at 24 |
| RegisterPage.EditPhone | src/components/RegisterPage.jsx:152-155 | the phone field holds the digits typed, in order, and nothing else changes |
| RegisterPage.SendOtp | src/components/RegisterPage.jsx:46-70 | a phone that is not ten characters only sets the error; a request leaves the browser as the `api` interceptors left it; success shows the boxes with the timer at 24; failure shows the call's own error, which is 'Failed to send OTP' after an expired token was logged out |
| RegisterPage.Resend | src/components/RegisterPage.jsx:215-216 | resend sends again only when the timer is 0 |
| RegisterPage.Tick | src/components/RegisterPage.jsx:38-44 | the timer drops by one only while an OTP was sent and it is positive |
| RegisterPage.OtpBox | src/components/RegisterPage.jsx:192-201 | the box keeps the digits typed and no other box changes; verification fires iff the last box got input and no box is empty, with the boxes joined |
| RegisterPage.NonDigitNeverVerifies | src/components/RegisterPage.jsx:194-199 | typing only non-digits into the last box never verifies |
| RegisterPage.VerifyOtp | src/components/RegisterPage.jsx:72-95 | the browser is what the `api` interceptors left; an existing user goes to the already-registered screen, a new one to step 2; a failure empties all six boxes and shows the call's own error ('Failed to verify OTP' after an expired token was logged out); a null body sets the generic error |
| RegisterPage.Validate | src/components/RegisterPage.jsx:102-106 | name, email, class, board and address are checked in that order and the first failure decides; name, email and address are trimmed, class and board only checked for emptiness |
| RegisterPage.ClassAndBoardAreNotTrimmed | src/components/RegisterPage.jsx:102-105 | a blank name is rejected but a class and board of spaces are accepted |
| RegisterPage.RegistrationSendsFormattedPhone | src/components/RegisterPage.jsx:112 | registration sends every field as entered except the phone number, which gets +91 |
| RegisterPage.Register | src/components/RegisterPage.jsx:98-124 | a failed check only sets its message; a valid form is registered through the `api` instance; success shows the success screen; failure keeps the success flag and shows the call's own error, which is 'Failed to register user' after an expired token was logged out |
| RegisterPage.ScreenOf | src/components/RegisterPage.jsx:458-464 | success wins, then already-registered, then the phone step iff step is 1 |
| RegisterPage.Back | src/components/RegisterPage.jsx:424-428 | the back button shows only past step 1 before success and goes one step back |
| RegisterPage.NewUserReachesProfile | src/components/RegisterPage.jsx:79-84 | a verified new user with no expired token reaches the profile step with a back button leading to the phone step, and the browser is untouched |
| RegisterPage.UseDifferentNumber | src/components/RegisterPage.jsx:407-416 | leaves the already-registered screen with empty boxes and no OTP sent; the form, step, countdown and browser are kept |

## Left out

- Rendering: JSX markup, styling, animations, icons, scrolling and the `ErrorBoundary` are presentation only. A render that would throw is the `ExplanationError` or `RenderError` view, for the explanation and practice components only.
- `fetch`, `TextDecoder`, axios instances and interceptor registration are foreign I/O. Each request is the `Outcome` it produced, and the body is a list of decoded reads.
- The intermediate `loading` states during an `await`: each asynchronous handler is one step from before the request to after it.
- Concurrency and stream cancellation (`src/pages/Chat.jsx:99-101`): `eventSourceRef` is never assigned, and the model runs one send at a time.
- `useAuthCheck` polling (`src/hooks/useAuthCheck.js`) is timer-driven I/O and is not part of this model. `Tick` is the pure step of the countdown timers.
- DOM focus calls, the consent checkbox, `maxLength` attributes, and the Backspace focus handling of the OTP boxes change no modelled state.
- Floating-point numbers: JSON numbers are integers here, so `String()` of a fraction is not modelled, and integers of 10^21 or more are spelled out in full where JavaScript writes exponent form such as `1e+21`.
- Objects whose own `toString` or `valueOf` would change `String()`, and keys inherited from `Object.prototype` (such as `constructor`), are not modelled. An object's fields are its own keys only.
- JavaScript string lengths are counted in UTF-16 code units. Here they are counted in characters, which differs only outside the Basic Multilingual Plane.
- The `catch` blocks of `handleSendOTP` and `handleRegistration` in `src/components/RegisterPage.jsx` are unreachable, because the API helpers never reject. They are not modelled.
- Static pages and layout (`App`, `Header`, `Footer`, `Sidebar`, `MainLayout`, `ChatCard`, `WelcomeSection`, `DeviceLogoutModal`, `ProtectedRoute`, the pricing page) hold no decision logic.
- `JSON.parse`, `JSON.stringify` and `Date` parsing are abstract function parameters, so their internals are not modelled.
- Practice.Score: the `reduce` over `data.questions` is modelled over decoded questions only. A payload whose questions do not all render throws before the score is shown.
- ChatRender.ExplanationOf: an own `length` field holding a string or an array counts as not positive, because the string-to-number conversion of `>` is not modelled.
- `src/components/RegisterPage.jsx:7` imports `setAuthToken`, which `src/utils/auth.js` does not export. The model assumes the page loads.
- ChatStream.Send: the model takes the reads and a failure flag, not the point at which a transport failure interrupted the reads. A failure is assumed to come after the reads that were delivered.

=== FILE: auth_api.dfy ===
/** The request helpers of `src/api/auth.js`: phone normalisation, the two
    interceptors of the `api` axios instance, and the mapping of each call's
    outcome into the `{success, data | error}` record the pages consume. The
    HTTP round trip itself is the `Outcome` parameter of each call. */
module AuthApi {
  import opened Wrappers
  import opened JsValues
  import opened Text
  import opened Http
  import opened Session

  const CountryCode: string := "+91"

  /** `formatPhoneNumber`: prefix the Indian country code unless present. */
  function FormatPhone(phone: string): (r: string)
    ensures StartsWith(r, CountryCode)
    ensures StartsWith(phone, CountryCode) <==> r == phone
    ensures !StartsWith(phone, CountryCode) ==> r == CountryCode + phone
  {
    if StartsWith(phone, CountryCode) then phone else CountryCode + phone
  }

  /** Formatting an already formatted number changes nothing. */
  lemma FormatPhoneIdempotent(phone: string)
    ensures FormatPhone(FormatPhone(phone)) == FormatPhone(phone)
  {
  }

  // ---------------------------------------------------------------- interceptors

  const SessionExpiredReason: string := "Session expired"

  datatype RequestDecision =
    | Forward(headers: map<string, string>)
    | Reject(reason: string)

  datatype InterceptedRequest = InterceptedRequest(browser: Browser, decision: RequestDecision)

  /** The request interceptor: without a stored token the request goes out
      unchanged; with one that has expired the user is logged out and the
      request is rejected with 'Session expired'; otherwise it carries a
      bearer Authorization header and nothing else changes. */
  function InterceptRequest(b: Browser, now: int, parseDate: string -> Option<int>,
                            headers: map<string, string>): (r: InterceptedRequest)
    ensures !HasTruthyItem(b.store, TokenKey) ==> r == InterceptedRequest(b, Forward(headers))
    ensures HasTruthyItem(b.store, TokenKey) && IsTokenExpired(b.store, now, parseDate) ==>
              r == InterceptedRequest(Logout(b), Reject(SessionExpiredReason))
    ensures HasTruthyItem(b.store, TokenKey) && !IsTokenExpired(b.store, now, parseDate) ==>
              && r.browser == b
              && r.decision.Forward?
              && r.decision.headers.Keys == headers.Keys + {"Authorization"}
              && r.decision.headers["Authorization"] == "Bearer " + b.store[TokenKey]
              && (forall h :: h in headers && h != "Authorization" ==> r.decision.headers[h] == headers[h])
  {
    match GetItem(b.store, TokenKey)
    case None => InterceptedRequest(b, Forward(headers))
    case Some(token) =>
      if token == "" then InterceptedRequest(b, Forward(headers))
      else if IsTokenExpired(b.store, now, parseDate) then
        InterceptedRequest(Logout(b), Reject(SessionExpiredReason))
      else InterceptedRequest(b, Forward(headers["Authorization" := "Bearer " + token]))
  }

  /** A request only ever goes out with an Authorization header when the
      browser is authenticated at that instant. */
  lemma AuthorizedOnlyWhenAuthenticated(b: Browser, now: int, parseDate: string -> Option<int>,
                                        headers: map<string, string>)
    requires "Authorization" !in headers
    requires InterceptRequest(b, now, parseDate, headers).decision.Forward?
    requires "Authorization" in InterceptRequest(b, now, parseDate, headers).decision.headers
    ensures IsAuthenticated(b.store, now, parseDate)
  {
  }

  /** The `api` instance's response-error interceptor: logs out on any 401
      or 403 and rejects every error unchanged. */
  function InterceptApiError(b: Browser, e: HttpError): (r: Rejection)
    ensures r.error == e
    ensures HasStatus(e, 401) || HasStatus(e, 403) ==> r.browser == Logout(b)
    ensures !HasStatus(e, 401) && !HasStatus(e, 403) ==> r.browser == b
  {
    match e.response
    case Some(resp) =>
      if resp.status == 401 || resp.status == 403 then Rejection(Logout(b), e) else Rejection(b, e)
    case None => Rejection(b, e)
  }

  /** Every error that ends the session for the global interceptor also
      logs out through the `api` instance's interceptor. */
  lemma SessionEndingErrorsLogOutApi(b: Browser, e: HttpError)
    requires EndsSession(e)
    ensures InterceptApiError(b, e).browser == InterceptSessionError(b, e).browser
  {
  }

  /** A token is stored but its expiry has passed: the request interceptor
      logs out and sends nothing. */
  predicate StaleSession(b: Browser, now: int, parseDate: string -> Option<int>) {
    HasTruthyItem(b.store, TokenKey) && IsTokenExpired(b.store, now, parseDate)
  }

  /** A request sent through the `api` instance, as the caller sees it: the
      browser after both interceptors, and the outcome the call's `await`
      delivers. */
  datatype Sent = Sent(browser: Browser, outcome: Outcome)

  /** One request through the `api` instance: the request interceptor runs
      first, and if it rejects ('Session expired', a string without a
      `response`) no request is made; otherwise the server answers with `o`.
      A rejection then passes the response interceptor. */
  function ThroughApi(b: Browser, now: int, parseDate: string -> Option<int>, o: Outcome): (r: Sent)
    ensures StaleSession(b, now, parseDate) ==>
              r == Sent(Logout(b), Rejected(HttpError(None)))
    ensures !StaleSession(b, now, parseDate) ==> r.outcome == o
    ensures !StaleSession(b, now, parseDate) && o.Rejected? ==>
              r.browser == InterceptApiError(b, o.error).browser
    ensures !StaleSession(b, now, parseDate) && o.Resolved? ==>
              r.browser == b
  {
    var request := InterceptRequest(b, now, parseDate, map[]);
    match request.decision
    case Reject(_) =>
      var e := HttpError(None);
      Sent(InterceptApiError(request.browser, e).browser, Rejected(e))
    case Forward(_) =>
      match o
      case Resolved(_) => Sent(b, o)
      case Rejected(e) => Sent(InterceptApiError(b, e).browser, o)
  }

  /** A call through the `api` instance ends the session or leaves the
      browser as it was: only a stored token that has expired, or an answer
      with status 401 or 403, logs out. */
  lemma ThroughApiLogsOutOnlyOnAuthFailure(b: Browser, now: int, parseDate: string -> Option<int>, o: Outcome)
    ensures var r := ThroughApi(b, now, parseDate, o);
            r.browser == Logout(b) || r.browser == b
    ensures var r := ThroughApi(b, now, parseDate, o);
            r.browser != b ==>
              StaleSession(b, now, parseDate)
              || (o.Rejected? && (HasStatus(o.error, 401) || HasStatus(o.error, 403)))
  {
  }

  // ---------------------------------------------------------------- calls

  /** The `{success, data}` / `{success: false, error}` record of a call. */
  datatype ApiResult = ApiOk(data: JsValue) | ApiFail(error: JsValue)

  /** The shared shape of `sendOTP`, `verifyOTP` and `registerUser`: the
      response body on success, else the server's `error` field or the
      call's fallback text. */
  function WrapCall(o: Outcome, fallback: string): (r: ApiResult)
    requires fallback != ""
    ensures o.Resolved? ==> r == ApiOk(o.data)
    ensures o.Rejected? && Truthy(ResponseField(o.error, "error")) ==> r == ApiFail(ResponseField(o.error, "error"))
    ensures o.Rejected? && !Truthy(ResponseField(o.error, "error")) ==> r == ApiFail(Str(fallback))
    ensures r.ApiFail? ==> Truthy(r.error)
  {
    match o
    case Resolved(data) => ApiOk(data)
    case Rejected(e) => ApiFail(Or(ResponseField(e, "error"), Str(fallback)))
  }

  const SendOtpFallback: string := "Failed to send OTP"
  const VerifyOtpFallback: string := "Failed to verify OTP"
  const RegisterFallback: string := "Failed to register user"

  /** The body of `POST /auth/send-verification`. */
  function SendOtpBody(phone: string): (body: map<string, JsValue>)
    ensures body.Keys == {"phone_number"}
    ensures body["phone_number"] == Str(FormatPhone(phone))
  {
    map["phone_number" := Str(FormatPhone(phone))]
  }

  /** `sendOTP`: the server's body, or its error, or 'Failed to send OTP'. */
  function SendOtp(o: Outcome): (r: ApiResult)
    ensures r.ApiOk? <==> o.Resolved?
    ensures r.ApiFail? ==> Truthy(r.error)
    ensures o.Resolved? ==> r == ApiOk(o.data)
    ensures o.Rejected? && Truthy(ResponseField(o.error, "error")) ==> r == ApiFail(ResponseField(o.error, "error"))
    ensures o.Rejected? && !Truthy(ResponseField(o.error, "error")) ==> r == ApiFail(Str(SendOtpFallback))
  {
    WrapCall(o, SendOtpFallback)
  }

  /** The body of `POST /auth/verify-otp`. */
  function VerifyOtpBody(phone: string, code: string): (body: map<string, JsValue>)
    ensures body.Keys == {"phone_number", "code"}
    ensures body["phone_number"] == Str(FormatPhone(phone)) && body["code"] == Str(code)
  {
    map["phone_number" := Str(FormatPhone(phone)), "code" := Str(code)]
  }

  /** `verifyOTP`: the server's body, or its error, or 'Failed to verify OTP'. */
  function VerifyOtp(o: Outcome): (r: ApiResult)
    ensures r.ApiOk? <==> o.Resolved?
    ensures r.ApiFail? ==> Truthy(r.error)
    ensures o.Resolved? ==> r == ApiOk(o.data)
    ensures o.Rejected? && Truthy(ResponseField(o.error, "error")) ==> r == ApiFail(ResponseField(o.error, "error"))
    ensures o.Rejected? && !Truthy(ResponseField(o.error, "error")) ==> r == ApiFail(Str(VerifyOtpFallback))
  {
    WrapCall(o, VerifyOtpFallback)
  }

  /** The body of `POST /auth/register`: the user's fields with only the
      phone number replaced by its formatted form. Without a phone number
      `formatPhoneNumber` throws inside the call and no body is built. */
  function RegisterBody(userData: map<string, string>): (body: Option<map<string, string>>)
    ensures body.Some? <==> "phone_number" in userData
    ensures body.Some? ==> body.value.Keys == userData.Keys
    ensures body.Some? ==> body.value["phone_number"] == FormatPhone(userData["phone_number"])
    ensures body.Some? ==> forall k :: k in userData && k != "phone_number" ==> body.value[k] == userData[k]
  {
    if "phone_number" in userData then
      Some(userData["phone_number" := FormatPhone(userData["phone_number"])])
    else None
  }

  /** `registerUser`: the call's result, or the fallback error when the
      body could not be built. */
  function RegisterUser(userData: map<string, string>, o: Outcome): (r: ApiResult)
    ensures "phone_number" !in userData ==> r == ApiFail(Str(RegisterFallback))
    ensures "phone_number" in userData ==> r == WrapCall(o, RegisterFallback)
  {
    match RegisterBody(userData)
    case None => ApiFail(Str(RegisterFallback))
    case Some(_) => WrapCall(o, RegisterFallback)
  }

  /** The body of `POST /auth/login`. */
  function LoginBody(phone: string, otpCode: string, forceLogin: bool): (body: map<string, JsValue>)
    ensures body.Keys == {"phone_number", "otp_code", "force_login"}
    ensures body["phone_number"] == Str(FormatPhone(phone))
    ensures body["otp_code"] == Str(otpCode) && body["force_login"] == Bool(forceLogin)
  {
    map["phone_number" := Str(FormatPhone(phone)), "otp_code" := Str(otpCode),
        "force_login" := Bool(forceLogin)]
  }

  const UserNotFound: string := "User not found. Please register first."
  const ActiveSessionExists: string := "ACTIVE_SESSION_EXISTS"
  const LoginFailedFallback: string := "Login failed"
  const LoginErrorFallback: string := "Failed to login"

  datatype DeviceInfo = DeviceInfo(browser: JsValue, os: JsValue, lastLoginTime: JsValue)

  /** What `loginUser` resolves to, or `LoginThrows` when it rejects (a 409
      response without device information makes the catch block itself
      throw). */
  datatype LoginResult =
    | LoginOk(accessToken: JsValue, expiresAt: JsValue, user: JsValue)
    | LoginFail(error: JsValue, device: Option<DeviceInfo>)
    | LoginThrows

  /** The 409 branch: the device description of the other active session.
      Reading `deviceInfo` of a missing body, or a field of a missing
      `deviceInfo`, throws. */
  function ActiveSession(resp: Response): (r: LoginResult)
    ensures r.LoginThrows? <==> Nullish(resp.data) || Nullish(Prop(resp.data, "deviceInfo"))
    ensures var info := Prop(resp.data, "deviceInfo");
            !r.LoginThrows? ==>
              r == LoginFail(Str(ActiveSessionExists),
                             Some(DeviceInfo(Prop(info, "browser"), Prop(info, "os"), Prop(info, "lastLoginTime"))))
  {
    var info := Prop(resp.data, "deviceInfo");
    if Nullish(resp.data) || Nullish(info) then LoginThrows
    else
      LoginFail(Str(ActiveSessionExists),
                Some(DeviceInfo(Prop(info, "browser"), Prop(info, "os"), Prop(info, "lastLoginTime"))))
  }

  /** The catch block of `loginUser`. */
  function LoginError(e: HttpError): LoginResult {
    if HasStatus(e, 404) then LoginFail(Str(UserNotFound), None)
    else if HasStatus(e, 409) then ActiveSession(e.response.value)
    else LoginFail(Or(ResponseField(e, "error"), Str(LoginErrorFallback)), None)
  }

  /** `loginUser`: a body whose `success` is truthy yields exactly its
      token, expiry and user; a body without it yields its `error` or
      'Login failed'; a rejection maps 404 to the register prompt text, 409
      to the active-session error with the other device, and anything else
      to the server's error or 'Failed to login'. A `null` body makes
      `data.success` throw inside the try and lands in the catch without a
      response. */
  function LoginUser(o: Outcome): (r: LoginResult)
    ensures o.Resolved? && !Nullish(o.data) && Truthy(Prop(o.data, "success")) ==>
              r == LoginOk(Prop(o.data, "access_token"), Prop(o.data, "expires_at"), Prop(o.data, "user"))
    ensures o.Resolved? && !Nullish(o.data) && !Truthy(Prop(o.data, "success")) ==>
              r == LoginFail(Or(Prop(o.data, "error"), Str(LoginFailedFallback)), None)
    ensures o.Resolved? && Nullish(o.data) ==> r == LoginFail(Str(LoginErrorFallback), None)
    ensures o.Rejected? && HasStatus(o.error, 404) ==> r == LoginFail(Str(UserNotFound), None)
    ensures o.Rejected? && HasStatus(o.error, 409) ==>
              (r.LoginThrows? <==> Nullish(o.error.response.value.data)
                                   || Nullish(Prop(o.error.response.value.data, "deviceInfo")))
    ensures o.Rejected? && HasStatus(o.error, 409) && !r.LoginThrows? ==>
              var info := Prop(o.error.response.value.data, "deviceInfo");
              r == LoginFail(Str(ActiveSessionExists),
                             Some(DeviceInfo(Prop(info, "browser"), Prop(info, "os"), Prop(info, "lastLoginTime"))))
    ensures r.LoginThrows? || (r.LoginFail? && r.device.Some?) ==> o.Rejected? && HasStatus(o.error, 409)
    ensures o.Rejected? && !HasStatus(o.error, 404) && !HasStatus(o.error, 409) ==>
              r == LoginFail(Or(ResponseField(o.error, "error"), Str(LoginErrorFallback)), None)
    ensures r.LoginFail? ==> Truthy(r.error)
    ensures r.LoginFail? && r.device.Some? ==> r.error == Str(ActiveSessionExists)
  {
    match o
    case Resolved(data) =>
      if Nullish(data) then LoginError(HttpError(None))
      else if Truthy(Prop(data, "success")) then
        LoginOk(Prop(data, "access_token"), Prop(data, "expires_at"), Prop(data, "user"))
      else LoginFail(Or(Prop(data, "error"), Str(LoginFailedFallback)), None)
    case Rejected(e) => LoginError(e)
  }

  // ---------------------------------------------------------------- session helpers

  const LogoutFallback: string := "Failed to logout"

  datatype LogoutResult = LogoutResult(browser: Browser, result: ApiResult)

  /** `logoutUser`: the request goes through the `api` instance; once the
      server accepted it the local session is cleared; if it failed, the
      browser is what the interceptors left (logged out on an expired token
      or a 401/403 answer) and the error is reported. */
  function LogoutUser(b: Browser, now: int, parseDate: string -> Option<int>, o: Outcome): (r: LogoutResult)
    ensures var sent := ThroughApi(b, now, parseDate, o);
            sent.outcome.Resolved? ==> r.browser == Logout(b) && r.result.ApiOk?
    ensures var sent := ThroughApi(b, now, parseDate, o);
            sent.outcome.Rejected? ==> r.browser == sent.browser && r.result == WrapCall(sent.outcome, LogoutFallback)
    ensures o.Rejected? && (HasStatus(o.error, 401) || HasStatus(o.error, 403)) ==>
              r.browser == Logout(b) && r.result.ApiFail?
    ensures o.Rejected? && !HasStatus(o.error, 401) && !HasStatus(o.error, 403)
            && !StaleSession(b, now, parseDate) ==>
              r.browser == b && r.result == WrapCall(o, LogoutFallback)
  {
    var sent := ThroughApi(b, now, parseDate, o);
    match sent.outcome
    case Resolved(_) => LogoutResult(Logout(sent.browser), ApiOk(Undefined))
    case Rejected(e) => LogoutResult(sent.browser, ApiFail(Or(ResponseField(e, "error"), Str(LogoutFallback))))
  }

  /** After `logoutUser` the browser is signed out, unless the server
      refused with a status other than 401 and 403 while the session was
      still valid. */
  lemma LogoutUserSignsOut(b: Browser, now: int, parseDate: string -> Option<int>, o: Outcome)
    requires o.Resolved? || HasStatus(o.error, 401) || HasStatus(o.error, 403)
             || StaleSession(b, now, parseDate)
    ensures !IsAuthenticated(LogoutUser(b, now, parseDate, o).browser.store, now, parseDate)
  {
    var r := LogoutUser(b, now, parseDate, o);
    assert r.browser == Logout(b) || r.browser == Logout(Logout(b));
    LoggedOutIsUnauthenticated(b, now, parseDate);
    LoggedOutIsUnauthenticated(Logout(b), now, parseDate);
  }

  /** `getCurrentUser`: the stored user parsed, or `null` when there is none
      or it does not parse. */
  function GetCurrentUser(store: Store, parseJson: string -> Option<JsValue>): (user: JsValue)
    ensures !HasTruthyItem(store, UserKey) ==> user == Null
    ensures HasTruthyItem(store, UserKey) && parseJson(store[UserKey]).Some? ==> user == parseJson(store[UserKey]).value
    ensures HasTruthyItem(store, UserKey) && parseJson(store[UserKey]).None? ==> user == Null
  {
    match GetItem(store, UserKey)
    case None => Null
    case Some(text) =>
      if text == "" then Null
      else
        match parseJson(text)
        case None => Null
        case Some(v) => v
  }

  /** `getCurrentUser` returns the same user as the session helper `getUser`;
      the two differ only in that `getUser` also logs out on a parse
      failure. */
  lemma CurrentUserAgreesWithGetUser(b: Browser, parseJson: string -> Option<JsValue>)
    ensures GetCurrentUser(b.store, parseJson) == GetUser(b, parseJson).user
    ensures GetUser(b, parseJson).browser == b ||
            (GetUser(b, parseJson).browser == Logout(b) && GetCurrentUser(b.store, parseJson) == Null)
  {
  }

  /** This module's `isAuthenticated` reads the same stored token and the
      same expiry test as the session helper, so the two always agree. */
  function IsAuthenticatedHere(store: Store, now: int, parseDate: string -> Option<int>): (ok: bool)
    ensures ok == IsAuthenticated(store, now, parseDate)
  {
    HasTruthyItem(store, TokenKey) && !IsTokenExpired(store, now, parseDate)
  }
}

=== FILE: chat_input.dfy ===
/** `src/components/features/ChatInput.jsx`: the text box, its suggestion
    popover and the trailing button. The page's `onSendMessage` callback is
    represented by the message a step hands back. */
module ChatInput {
  import opened Wrappers
  import opened Text

  datatype InputState = InputState(message: string, focused: bool, showSuggestions: bool)

  const Initial: InputState := InputState("", false, false)

  const Suggestions: seq<string> := ["Generate Quant MCQs", "Practice Reasoning", "Current Affairs Update"]

  /** The new state, and the text passed to `onSendMessage` if it was called. */
  datatype Submitted = Submitted(state: InputState, sent: Option<string>)

  /** `handleSubmit`: a non-blank message on an enabled input is sent as
      typed (untrimmed), after which the box is empty and the suggestions
      are hidden; otherwise nothing happens. */
  function Submit(s: InputState, disabled: bool): (r: Submitted)
    ensures r.sent.Some? <==> !Blank(s.message) && !disabled
    ensures r.sent.Some? ==> r.sent.value == s.message && r.state == s.(message := "", showSuggestions := false)
    ensures r.sent.None? ==> r.state == s
  {
    if Trim(s.message) != "" && !disabled then
      Submitted(s.(message := "", showSuggestions := false), Some(s.message))
    else Submitted(s, None)
  }

  /** Typing replaces the text and nothing else; what was typed is exactly
      what an enabled submit then sends, unless it is blank. */
  function Type(s: InputState, text: string): (r: InputState)
    ensures r.message == text && r.focused == s.focused && r.showSuggestions == s.showSuggestions
    ensures Submit(r, false).sent == if Blank(text) then None else Some(text)
  {
    s.(message := text)
  }

  /** `handlePlusClick`: on an enabled input, flips the popover and focuses
      the box; on a disabled one, nothing. */
  function PlusClick(s: InputState, disabled: bool): (r: InputState)
    ensures disabled ==> r == s
    ensures !disabled ==> r.showSuggestions == !s.showSuggestions && r.focused && r.message == s.message
  {
    if !disabled then s.(showSuggestions := !s.showSuggestions, focused := true) else s
  }

  /** Picking suggestion `i` puts its label in the box and hides the list. */
  function PickSuggestion(s: InputState, i: nat): (r: InputState)
    requires i < |Suggestions|
    ensures r.message == Suggestions[i] && !r.showSuggestions && r.focused == s.focused
  {
    s.(message := Suggestions[i], showSuggestions := false)
  }

  datatype TrailingButton = NoButton | PlusButton | SendButton

  /** The button at the end of the box: none when disabled, the plus button
      for a blank message, the send button otherwise. */
  function Trailing(s: InputState, disabled: bool): (b: TrailingButton)
    ensures b == NoButton <==> disabled
    ensures b == PlusButton <==> !disabled && Blank(s.message)
  {
    if disabled then NoButton
    else if Trim(s.message) == "" then PlusButton
    else SendButton
  }

  /** The send button is shown exactly when submitting would send. */
  lemma SendButtonIffSubmitSends(s: InputState, disabled: bool)
    ensures Trailing(s, disabled) == SendButton <==> Submit(s, disabled).sent.Some?
  {
  }

  /** A suggestion can be sent as picked, since every label has text. */
  lemma PickedSuggestionIsSendable(s: InputState, i: nat)
    requires i < |Suggestions|
    ensures Submit(PickSuggestion(s, i), false).sent == Some(Suggestions[i])
  {
    assert !IsWhitespace(Suggestions[i][0]);
  }
}

=== FILE: chat_render.dfy ===
/** The decisions of `src/components/features/ChatMessages.jsx` other than
    the quiz: which view `ResponseRenderer` picks for a payload, what the
    explanation view shows and its one-slot accordion, and the order of the
    rows `ChatMessages` renders. */
module ChatRender {
  import opened Wrappers
  import opened JsValues
  import opened ChatStream

  /** The views `ResponseRenderer` can produce. */
  datatype RenderMode =
    | StreamingText(buffer: JsValue)
    | PlainText(text: string)
    | InvalidFormat
    | Explanation(data: JsValue)
    | Practice(data: JsValue)
    | PrettyJson(data: JsValue)

  /** `typeof v === 'object'`, which includes `null` and arrays. */
  predicate IsObjectType(v: JsValue) {
    v.Null? || v.Arr? || v.Obj?
  }

  const ExplanationTag: string := "explanation"
  const PracticeTag: string := "practice"

  /** The key `components[data.type]` looks up: like every computed property
      key, the tag is converted to a string first, so `["practice"]` is the
      key "practice" while the lookup is still case-sensitive. */
  function TagKey(data: JsValue): string {
    ToJsString(Prop(data, "type"))
  }

  /** `ResponseRenderer`: the streaming flag wins, then strings, then values
      that are falsy or not objects, then the two component tags, and
      everything else is shown as pretty-printed JSON. */
  function Classify(data: JsValue, isStreaming: bool): (m: RenderMode)
    ensures isStreaming ==> m == StreamingText(data)
    ensures !isStreaming && data.Str? ==> m == PlainText(data.s)
    ensures m.InvalidFormat? <==> !isStreaming && (data.Undefined? || data.Null? || data.Bool? || data.Num?)
    ensures m.Explanation? <==> !isStreaming && data.Obj? && TagKey(data) == ExplanationTag
    ensures m.Practice? <==> !isStreaming && data.Obj? && TagKey(data) == PracticeTag
    ensures m.PrettyJson? <==>
              && !isStreaming
              && (data.Arr? || (data.Obj? && TagKey(data) != ExplanationTag && TagKey(data) != PracticeTag))
    ensures m.Explanation? || m.Practice? || m.PrettyJson? ==> m.data == data
  {
    if isStreaming then StreamingText(data)
    else if data.Str? then PlainText(data.s)
    else if !Truthy(data) || !IsObjectType(data) then InvalidFormat
    else
      var key := TagKey(data);
      if key == ExplanationTag then Explanation(data)
      else if key == PracticeTag then Practice(data)
      else PrettyJson(data)
  }

  /** A string tag selects a component only when it is spelled exactly like
      the component's key: no case folding and no trimming. */
  lemma StringTagMatchesExactly(fields: map<string, JsValue>, tag: string)
    ensures Classify(Obj(fields["type" := Str(tag)]), false).Explanation? <==> tag == ExplanationTag
    ensures Classify(Obj(fields["type" := Str(tag)]), false).Practice? <==> tag == PracticeTag
  {
    assert TagKey(Obj(fields["type" := Str(tag)])) == tag;
  }

  /** A tag that is an array holding the component's name converts to that
      name, so it selects the component as a plain string tag would. */
  lemma ArrayTagSelectsComponent(fields: map<string, JsValue>)
    ensures Classify(Obj(fields["type" := Arr([Str(PracticeTag)])]), false).Practice?
    ensures Classify(Obj(fields["type" := Arr([Str(ExplanationTag)])]), false).Explanation?
  {
    assert ToJsString(Arr([Str(PracticeTag)])) == PracticeTag;
    assert ToJsString(Arr([Str(ExplanationTag)])) == ExplanationTag;
  }

  /** The error turn of the stream carries the tag 'text', which names no
      component, so it is shown as pretty-printed JSON. */
  lemma ErrorTurnShownAsJson(text: JsValue)
    ensures Classify(ErrorMessage(text).content, false) == PrettyJson(ErrorMessage(text).content)
  {
  }

  // ---------------------------------------------------------------- explanation

  /** What `ExplanationResponse` shows. `ExplanationError` is a render that
      throws, after which the error boundary shows its fixed notice. */
  datatype ExplanationView =
    | MissingContent
    | ExplanationBody(title: JsValue, introduction: JsValue)
    | ExplanationError

  const DefaultTopic: string := "Topic Explanation"

  /** `v?.length > 0` for the values a JSON payload can hold: the length of
      an array or a string, or an object's own `length` field when it is a
      number or a boolean. */
  predicate LengthPositive(v: JsValue) {
    match Prop(v, "length")
    case Num(n) => n > 0
    case Bool(b) => b
    case _ => false
  }

  /** `v?.length > 0 && v.map(x => <li>{x}</li>)`: nothing is shown without a
      positive length; with one, only an array can be mapped, and each of its
      items must be a renderable child. */
  predicate ListRenders(v: JsValue) {
    !LengthPositive(v) || (v.Arr? && forall i :: 0 <= i < |v.items| ==> IsReactChild(v.items[i]))
  }

  /** One entry of `key_concepts`: a `null` concept throws on `concept.title`;
      the title must render, and while the concept is open so must its
      explanation, examples and formulas. */
  predicate ConceptRenders(c: JsValue, expanded: bool) {
    && !Nullish(c)
    && IsReactChild(Prop(c, "title"))
    && (expanded ==>
          IsReactChild(Prop(c, "explanation")) && ListRenders(Prop(c, "examples")) && ListRenders(Prop(c, "formulas")))
  }

  /** `key_concepts?.map(...)`: nothing when absent; otherwise only an array
      has `map`, and each of its concepts must render. */
  predicate ConceptsRender(concepts: JsValue, open: Accordion) {
    || Nullish(concepts)
    || (concepts.Arr? &&
        forall i :: 0 <= i < |concepts.items| ==> ConceptRenders(concepts.items[i], IsExpanded(open, i)))
  }

  /** `ExplanationResponse` with the accordion in state `open`: a falsy
      `content` shows the missing-content notice; otherwise the title is
      `topic` or the default heading, the lead paragraph is
      `content.introduction` or `content.explanation`, and the render throws
      when one of them is an object, when `key_concepts` is present but not
      an array or holds a `null`, or when `tips` or `common_mistakes` has a
      positive length but is not an array. */
  function ExplanationOf(data: JsValue, open: Accordion): (v: ExplanationView)
    ensures v.MissingContent? <==> !Truthy(Prop(data, "content"))
    ensures Truthy(Prop(data, "content")) && Prop(data, "topic").Obj? ==> v.ExplanationError?
    ensures Truthy(Prop(data, "content")) && Prop(Prop(data, "content"), "introduction").Obj? ==> v.ExplanationError?
    ensures var concepts := Prop(Prop(data, "content"), "key_concepts");
            Truthy(Prop(data, "content")) && !Nullish(concepts) && !concepts.Arr? ==> v.ExplanationError?
    ensures var concepts := Prop(Prop(data, "content"), "key_concepts");
            (&& Truthy(Prop(data, "content")) && concepts.Arr?
             && exists i :: 0 <= i < |concepts.items| && Nullish(concepts.items[i])) ==> v.ExplanationError?
    ensures var tips := Prop(Prop(data, "content"), "tips");
            Truthy(Prop(data, "content")) && LengthPositive(tips) && !tips.Arr? ==> v.ExplanationError?
    ensures var mistakes := Prop(Prop(data, "content"), "common_mistakes");
            Truthy(Prop(data, "content")) && LengthPositive(mistakes) && !mistakes.Arr? ==> v.ExplanationError?
    ensures var content := Prop(data, "content");
            v.ExplanationBody? <==>
              && Truthy(content)
              && IsReactChild(Or(Prop(data, "topic"), Str(DefaultTopic)))
              && IsReactChild(Or(Prop(content, "introduction"), Prop(content, "explanation")))
              && ConceptsRender(Prop(content, "key_concepts"), open)
              && ListRenders(Prop(content, "tips")) && ListRenders(Prop(content, "common_mistakes"))
    ensures v.ExplanationBody? ==> IsReactChild(v.title) && IsReactChild(v.introduction)
    ensures v.ExplanationBody? && Truthy(Prop(data, "topic")) ==> v.title == Prop(data, "topic")
    ensures v.ExplanationBody? && !Truthy(Prop(data, "topic")) ==> v.title == Str(DefaultTopic)
    ensures v.ExplanationBody? && Truthy(Prop(Prop(data, "content"), "introduction")) ==>
              v.introduction == Prop(Prop(data, "content"), "introduction")
    ensures v.ExplanationBody? && !Truthy(Prop(Prop(data, "content"), "introduction")) ==>
              v.introduction == Prop(Prop(data, "content"), "explanation")
  {
    var content := Prop(data, "content");
    if !Truthy(content) then MissingContent
    else
      var title := Or(Prop(data, "topic"), Str(DefaultTopic));
      var introduction := Or(Prop(content, "introduction"), Prop(content, "explanation"));
      if && IsReactChild(title) && IsReactChild(introduction)
         && ConceptsRender(Prop(content, "key_concepts"), open)
         && ListRenders(Prop(content, "tips")) && ListRenders(Prop(content, "common_mistakes"))
      then ExplanationBody(title, introduction)
      else ExplanationError
  }

  /** Closing every concept never makes a working explanation throw: the
      open concept only adds parts to the render. */
  lemma ClosedAccordionStillRenders(data: JsValue, open: Accordion)
    requires ExplanationOf(data, open).ExplanationBody?
    ensures ExplanationOf(data, None) == ExplanationOf(data, open)
  {
    var concepts := Prop(Prop(data, "content"), "key_concepts");
    if concepts.Arr? {
      forall i | 0 <= i < |concepts.items|
        ensures ConceptRenders(concepts.items[i], IsExpanded(None, i))
      {
        assert ConceptRenders(concepts.items[i], IsExpanded(open, i));
      }
    }
  }

  /** An explanation with a string topic and lead and no lists renders,
      whichever concept is open, with exactly that topic and lead. */
  lemma PlainExplanationRenders(data: JsValue, open: Accordion, topic: string, introduction: string)
    requires Truthy(Prop(data, "content"))
    requires Prop(data, "topic") == Str(topic) && topic != ""
    requires Prop(Prop(data, "content"), "introduction") == Str(introduction) && introduction != ""
    requires Prop(Prop(data, "content"), "key_concepts") == Undefined
    requires Prop(Prop(data, "content"), "tips") == Undefined
    requires Prop(Prop(data, "content"), "common_mistakes") == Undefined
    ensures ExplanationOf(data, open) == ExplanationBody(Str(topic), Str(introduction))
  {
  }

  /** A `key_concepts` string has no `map`, so the explanation fails to
      render whatever else it holds. */
  lemma StringConceptsThrow(data: JsValue, open: Accordion, text: string)
    requires Truthy(Prop(data, "content")) && Prop(Prop(data, "content"), "key_concepts") == Str(text)
    ensures ExplanationOf(data, open) == ExplanationError
  {
  }

  /** The accordion keeps at most one concept open: the index of the open
      one, if any. */
  type Accordion = Option<nat>

  predicate IsExpanded(open: Accordion, i: nat) {
    open == Some(i)
  }

  /** A click on concept `i`: it opens if it was closed and closes if it was
      open; every other concept ends up closed. */
  function Toggle(open: Accordion, i: nat): (r: Accordion)
    ensures IsExpanded(r, i) <==> !IsExpanded(open, i)
    ensures forall j: nat :: j != i ==> !IsExpanded(r, j)
  {
    if open == Some(i) then None else Some(i)
  }

  /** Clicking the same concept twice restores the accordion. */
  lemma ToggleTwice(open: Accordion, i: nat)
    requires open.None? || open == Some(i)
    ensures Toggle(Toggle(open, i), i) == open
  {
  }

  // ---------------------------------------------------------------- rows

  datatype Row =
    | WelcomeRow
    | TurnRow(message: Message)
    | StreamingRow(text: string)
    | LoadingRow

  /** The rows `ChatMessages` renders, top to bottom. */
  function Rows(messages: seq<Message>, loading: bool, streaming: string): (rows: seq<Row>)
    ensures |messages| == 0 ==> rows == [WelcomeRow]
    ensures |messages| > 0 ==>
              && |rows| == |messages| + (if streaming != "" then 1 else 0) + (if loading && streaming == "" then 1 else 0)
              && (forall i :: 0 <= i < |messages| ==> rows[i] == TurnRow(messages[i]))
              && (streaming != "" ==> rows[|messages|] == StreamingRow(streaming))
              && (loading && streaming == "" ==> rows[|messages|] == LoadingRow)
    ensures StreamingRow(streaming) in rows <==> |messages| > 0 && streaming != ""
    ensures LoadingRow in rows <==> |messages| > 0 && loading && streaming == ""
  {
    if |messages| == 0 then [WelcomeRow]
    else
      seq(|messages|, i requires 0 <= i < |messages| => TurnRow(messages[i]))
      + (if streaming != "" then [StreamingRow(streaming)] else [])
      + (if loading && streaming == "" then [LoadingRow] else [])
  }

  /** The buffer and the loading row never show together. */
  lemma StreamingAndLoadingExclusive(messages: seq<Message>, loading: bool, streaming: string)
    ensures !(StreamingRow(streaming) in Rows(messages, loading, streaming) &&
              LoadingRow in Rows(messages, loading, streaming))
  {
  }
}

=== FILE: chat_stream.dfy ===
/** The streaming half of `src/pages/Chat.jsx`: `handleSendMessage` reads the
    response body chunk by chunk, splits each chunk on newlines on its own,
    turns every `data: ` line into a typed event through `JSON.parse`, and
    folds the events into the conversation and the streaming buffer.
    `JSON.parse` is the `parse` parameter (`None` for a SyntaxError); the
    reads of the body are a list of already decoded strings. */
module ChatStream {
  import opened Wrappers
  import opened JsValues
  import opened Text

  datatype Role = User | Assistant

  datatype Message = Message(role: Role, content: JsValue)

  /** A parsed `data: ` record, dispatched on its exact `type` tag. */
  datatype Event =
    | Chunk(content: JsValue)
    | Final(content: JsValue)
    | Failure(content: JsValue)
    | Unrecognised

  type Parser = string -> Option<JsValue>

  const DataPrefix: string := "data: "
  const TransportErrorText: string := "Sorry, I encountered an error. Please try again."

  /** `handleError`: the synthetic assistant turn that carries an error text. */
  function ErrorMessage(text: JsValue): (m: Message)
    ensures m.role == Assistant
    ensures Prop(m.content, "type") == Str("text") && Prop(m.content, "subject") == Str("Error")
    ensures Prop(Prop(m.content, "content"), "explanation") == text
  {
    Message(Assistant, Obj(map["type" := Str("text"), "subject" := Str("Error"),
                               "content" := Obj(map["explanation" := text])]))
  }

  /** The `if/else if` on `data.type`. A `null` record makes `data.type`
      throw, which the surrounding catch treats like a parse failure. */
  function Dispatch(data: JsValue): (e: Option<Event>)
    ensures e.None? <==> Nullish(data)
    ensures e.Some? && e.value.Chunk? <==> !Nullish(data) && Prop(data, "type") == Str("chunk")
    ensures e.Some? && e.value.Final? <==> !Nullish(data) && Prop(data, "type") == Str("final")
    ensures e.Some? && e.value.Failure? <==> !Nullish(data) && Prop(data, "type") == Str("error")
    ensures e.Some? && !e.value.Unrecognised? ==> e.value.content == Prop(data, "content")
  {
    if Nullish(data) then None
    else
      var kind := Prop(data, "type");
      var content := Prop(data, "content");
      Some(if kind == Str("chunk") then Chunk(content)
           else if kind == Str("final") then Final(content)
           else if kind == Str("error") then Failure(content)
           else Unrecognised)
  }

  /** The event one line of a chunk contributes, if any. */
  function LineEvent(parse: Parser, line: string): (e: Option<Event>)
    ensures !StartsWith(line, DataPrefix) ==> e.None?
    ensures e.Some? ==> StartsWith(line, DataPrefix)
                        && parse(line[|DataPrefix|..]).Some?
                        && Dispatch(parse(line[|DataPrefix|..]).value) == e
  {
    if StartsWith(line, DataPrefix) then
      match parse(line[|DataPrefix|..])
      case None => None
      case Some(data) => Dispatch(data)
    else None
  }

  /** A data line's event is decided by its payload alone, the text after
      the six-character prefix. */
  lemma DataLineEvent(parse: Parser, payload: string)
    ensures parse(payload).None? ==> LineEvent(parse, DataPrefix + payload).None?
    ensures parse(payload).Some? ==> LineEvent(parse, DataPrefix + payload) == Dispatch(parse(payload).value)
  {
    assert (DataPrefix + payload)[..|DataPrefix|] == DataPrefix;
    assert (DataPrefix + payload)[|DataPrefix|..] == payload;
  }

  /** The events of one line as a list: empty, or its single event. */
  function LineEvents(parse: Parser, line: string): (es: seq<Event>)
    ensures |es| <= 1
    ensures es == [] <==> LineEvent(parse, line).None?
    ensures es != [] ==> es == [LineEvent(parse, line).value]
  {
    match LineEvent(parse, line)
    case None => []
    case Some(e) => [e]
  }

  /** `f` applied to every item, the results concatenated in item order. */
  function FlatMap(f: string -> seq<Event>, xs: seq<string>): seq<Event> {
    if |xs| == 0 then [] else f(xs[0]) + FlatMap(f, xs[1..])
  }

  lemma {:induction false} FlatMapAppend(f: string -> seq<Event>, x1: seq<string>, x2: seq<string>)
    ensures FlatMap(f, x1 + x2) == FlatMap(f, x1) + FlatMap(f, x2)
  {
    if |x1| > 0 {
      FlatMapAppend(f, x1[1..], x2);
      assert (x1 + x2)[0] == x1[0];
      assert (x1 + x2)[1..] == x1[1..] + x2;
    } else {
      assert x1 + x2 == x2;
    }
  }

  lemma FlatMapSingle(f: string -> seq<Event>, x: string)
    ensures FlatMap(f, [x]) == f(x)
  {
    assert FlatMap(f, [x]) == f(x) + FlatMap(f, [x][1..]);
    assert [x][1..] == [];
  }

  function LineFn(parse: Parser): string -> seq<Event> {
    line => LineEvents(parse, line)
  }

  /** The events of a list of lines, in line order. */
  function LinesEvents(parse: Parser, lines: seq<string>): seq<Event> {
    FlatMap(LineFn(parse), lines)
  }

  lemma LinesEventsAppend(parse: Parser, l1: seq<string>, l2: seq<string>)
    ensures LinesEvents(parse, l1 + l2) == LinesEvents(parse, l1) + LinesEvents(parse, l2)
  {
    FlatMapAppend(LineFn(parse), l1, l2);
  }

  lemma LinesEventsSingle(parse: Parser, line: string)
    ensures LinesEvents(parse, [line]) == LineEvents(parse, line)
  {
    FlatMapSingle(LineFn(parse), line);
  }

  /** A line that is not a data line, or whose payload does not parse, is
      invisible: the lines around it yield the same events in the same
      order as if it were not there. */
  lemma SkippedLineIsInvisible(parse: Parser, before: seq<string>, line: string, after: seq<string>)
    requires LineEvent(parse, line).None?
    ensures LinesEvents(parse, before + [line] + after) == LinesEvents(parse, before) + LinesEvents(parse, after)
  {
    LinesEventsAppend(parse, before + [line], after);
    LinesEventsAppend(parse, before, [line]);
    LinesEventsSingle(parse, line);
  }

  /** The events of one body read: its own lines only. */
  function ReadEvents(parse: Parser, read: string): seq<Event> {
    LinesEvents(parse, Split(read, '\n'))
  }

  function ReadFn(parse: Parser): string -> seq<Event> {
    read => ReadEvents(parse, read)
  }

  /** The events of a whole response body, read by read. */
  function StreamEvents(parse: Parser, received: seq<string>): seq<Event> {
    FlatMap(ReadFn(parse), received)
  }

  lemma {:induction false} StreamEventsSingle(parse: Parser, read: string)
    ensures StreamEvents(parse, [read]) == ReadEvents(parse, read)
  {
    FlatMapSingle(ReadFn(parse), read);
  }

  /** No state is carried from one read to the next: the events of two
      batches of reads are the events of each batch, one after the other. */
  lemma {:induction false} ReadsAreIndependent(parse: Parser, r1: seq<string>, r2: seq<string>)
    ensures StreamEvents(parse, r1 + r2) == StreamEvents(parse, r1) + StreamEvents(parse, r2)
  {
    FlatMapAppend(ReadFn(parse), r1, r2);
  }

  /** A line without a newline read in one piece yields its event, but the
      same line delivered across two reads yields none: the halves are
      examined separately and neither begins with the prefix. */
  lemma SplitDataLineIsLost(parse: Parser, payload: string)
    requires '\n' !in payload
    ensures StreamEvents(parse, ["dat", "a: " + payload]) == []
    ensures StreamEvents(parse, [DataPrefix + payload]) == LineEvents(parse, DataPrefix + payload)
  {
    var whole := DataPrefix + payload;
    var tail := "a: " + payload;
    assert '\n' !in whole by {
      assert forall i :: 0 <= i < |whole| ==> whole[i] == if i < 6 then DataPrefix[i] else payload[i - 6];
    }
    assert '\n' !in tail by {
      assert forall i :: 0 <= i < |tail| ==> tail[i] == if i < 3 then "a: "[i] else payload[i - 3];
    }
    SplitWithoutSeparator("dat", '\n');
    SplitWithoutSeparator(tail, '\n');
    SplitWithoutSeparator(whole, '\n');
    LinesEventsSingle(parse, "dat");
    LinesEventsSingle(parse, tail);
    LinesEventsSingle(parse, whole);
    assert tail[0] == 'a';
    assert LineEvents(parse, "dat") == [];
    assert LineEvents(parse, tail) == [];
    ReadsAreIndependent(parse, ["dat"], [tail]);
    assert ["dat"] + [tail] == ["dat", tail];
    StreamEventsSingle(parse, "dat");
    StreamEventsSingle(parse, tail);
    StreamEventsSingle(parse, whole);
  }

  // ---------------------------------------------------------------- accumulator

  /** The state one send folds events into: the committed conversation, the
      local `accumulatedText`, and the displayed `streamingContent`. */
  datatype Accumulator = Accumulator(messages: seq<Message>, text: string, streaming: string)

  /** One event: a chunk extends the accumulated text and shows it; a final
      commits one assistant turn and empties the buffer (the accumulated
      text is kept); an error commits an error turn and leaves the buffer
      alone; any other tag changes nothing. */
  function Apply(a: Accumulator, e: Event): (r: Accumulator)
    ensures e.Chunk? ==> r.messages == a.messages && r.text == a.text + ToJsString(e.content) && r.streaming == r.text
    ensures e.Final? ==> r.messages == a.messages + [Message(Assistant, e.content)] && r.text == a.text && r.streaming == ""
    ensures e.Failure? ==> r.messages == a.messages + [ErrorMessage(e.content)] && r.text == a.text && r.streaming == a.streaming
    ensures e.Unrecognised? ==> r == a
  {
    match e
    case Chunk(c) =>
      var text := a.text + ToJsString(c);
      a.(text := text, streaming := text)
    case Final(c) => a.(messages := a.messages + [Message(Assistant, c)], streaming := "")
    case Failure(c) => a.(messages := a.messages + [ErrorMessage(c)])
    case Unrecognised => a
  }

  function ApplyAll(a: Accumulator, es: seq<Event>): Accumulator
    decreases es
  {
    if |es| == 0 then a else ApplyAll(Apply(a, es[0]), es[1..])
  }

  lemma {:induction false} ApplyAllAppend(a: Accumulator, e1: seq<Event>, e2: seq<Event>)
    ensures ApplyAll(a, e1 + e2) == ApplyAll(ApplyAll(a, e1), e2)
    decreases e1
  {
    if |e1| > 0 {
      ApplyAllAppend(Apply(a, e1[0]), e1[1..], e2);
      assert (e1 + e2)[0] == e1[0];
      assert (e1 + e2)[1..] == e1[1..] + e2;
    } else {
      assert e1 + e2 == e2;
    }
  }

  /** The turn one event commits, if any. */
  function CommittedBy(e: Event): seq<Message> {
    match e
    case Final(c) => [Message(Assistant, c)]
    case Failure(c) => [ErrorMessage(c)]
    case _ => []
  }

  /** The turns a list of events commits, in event order. */
  function Committed(es: seq<Event>): seq<Message> {
    if |es| == 0 then [] else CommittedBy(es[0]) + Committed(es[1..])
  }

  /** The text one event adds to the accumulated text. */
  function ChunkTextOf(e: Event): string {
    if e.Chunk? then ToJsString(e.content) else ""
  }

  lemma AppendAssociates<T>(x: seq<T>, y: seq<T>, z: seq<T>)
    ensures (x + y) + z == x + (y + z)
  {
  }

  /** The concatenated text of the chunk events of a list, in order. */
  function ChunkText(es: seq<Event>): string {
    if |es| == 0 then "" else ChunkTextOf(es[0]) + ChunkText(es[1..])
  }

  /** The conversation only grows, by exactly the turns the final and error
      events commit, in the order they arrived. */
  lemma {:induction false} ApplyAllCommits(a: Accumulator, es: seq<Event>)
    ensures ApplyAll(a, es).messages == a.messages + Committed(es)
    decreases es
  {
    if |es| > 0 {
      var b := Apply(a, es[0]);
      ApplyAllCommits(b, es[1..]);
      calc {
        ApplyAll(a, es).messages;
        ApplyAll(b, es[1..]).messages;
        b.messages + Committed(es[1..]);
        { assert b.messages == a.messages + CommittedBy(es[0]); }
        (a.messages + CommittedBy(es[0])) + Committed(es[1..]);
        { AppendAssociates(a.messages, CommittedBy(es[0]), Committed(es[1..])); }
        a.messages + (CommittedBy(es[0]) + Committed(es[1..]));
      }
    }
  }

  /** The accumulated text is never reset within a send: it is the
      concatenation of every chunk so far, finals notwithstanding. */
  lemma {:induction false} ApplyAllText(a: Accumulator, es: seq<Event>)
    ensures ApplyAll(a, es).text == a.text + ChunkText(es)
    decreases es
  {
    if |es| > 0 {
      var b := Apply(a, es[0]);
      ApplyAllText(b, es[1..]);
      calc {
        ApplyAll(a, es).text;
        ApplyAll(b, es[1..]).text;
        b.text + ChunkText(es[1..]);
        { assert b.text == a.text + ChunkTextOf(es[0]); }
        (a.text + ChunkTextOf(es[0])) + ChunkText(es[1..]);
        { AppendAssociates(a.text, ChunkTextOf(es[0]), ChunkText(es[1..])); }
        a.text + (ChunkTextOf(es[0]) + ChunkText(es[1..]));
      }
    }
  }

  /** The buffer is always either empty or the whole accumulated text. */
  lemma {:induction false} StreamingShowsText(a: Accumulator, es: seq<Event>)
    requires a.streaming == "" || a.streaming == a.text
    ensures var r := ApplyAll(a, es); r.streaming == "" || r.streaming == r.text
    decreases es
  {
    if |es| > 0 {
      StreamingShowsText(Apply(a, es[0]), es[1..]);
    }
  }

  predicate AllChunks(es: seq<Event>) {
    forall i :: 0 <= i < |es| ==> es[i].Chunk?
  }

  /** After k chunk events the buffer shows exactly their concatenation
      (when k > 0) and nothing has been committed. */
  lemma {:induction false} ChunksConcatenate(a: Accumulator, es: seq<Event>)
    requires AllChunks(es)
    ensures ApplyAll(a, es).messages == a.messages
    ensures ApplyAll(a, es).text == a.text + ChunkText(es)
    ensures |es| > 0 ==> ApplyAll(a, es).streaming == a.text + ChunkText(es)
    decreases es
  {
    if |es| > 0 {
      var head := ToJsString(es[0].content);
      var b := Apply(a, es[0]);
      assert b == a.(text := a.text + head, streaming := a.text + head);
      assert AllChunks(es[1..]) by {
        forall i | 0 <= i < |es[1..]| ensures es[1..][i].Chunk? {
          assert es[1..][i] == es[i + 1];
        }
      }
      ChunksConcatenate(b, es[1..]);
      assert ChunkText(es) == head + ChunkText(es[1..]);
      AppendAssociates(a.text, head, ChunkText(es[1..]));
      if |es| == 1 {
        assert ChunkText(es[1..]) == "";
      }
    }
  }

  /** Chunks followed by one final: exactly one assistant turn, holding the
      final content, is committed, and the buffer ends empty. */
  lemma ChunksThenFinal(a: Accumulator, chunks: seq<Event>, content: JsValue)
    requires AllChunks(chunks)
    ensures var r := ApplyAll(a, chunks + [Final(content)]);
            r.messages == a.messages + [Message(Assistant, content)] && r.streaming == ""
  {
    ApplyAllAppend(a, chunks, [Final(content)]);
    ChunksConcatenate(a, chunks);
  }

  /** One line of the consumer loop: the prefix test, `JSON.parse`, the
      dispatch and the state update, with a failed parse skipping the line. */
  method ConsumeLine(parse: Parser, a: Accumulator, line: string) returns (r: Accumulator)
    ensures r == ApplyAll(a, LineEvents(parse, line))
  {
    r := a;
    if StartsWith(line, DataPrefix) {
      var parsed := parse(line[|DataPrefix|..]);
      if parsed.Some? {
        var event := Dispatch(parsed.value);
        if event.Some? {
          r := Apply(r, event.value);
        }
      }
    }
  }

  /** A non-empty list of lines: the first line's events, then the rest's. */
  lemma LinesEventsCons(parse: Parser, lines: seq<string>)
    requires |lines| > 0
    ensures LinesEvents(parse, lines) == LineEvents(parse, lines[0]) + LinesEvents(parse, lines[1..])
  {
  }

  /** A non-empty list of reads: the first read's events, then the rest's. */
  lemma StreamEventsCons(parse: Parser, received: seq<string>)
    requires |received| > 0
    ensures StreamEvents(parse, received) == ReadEvents(parse, received[0]) + StreamEvents(parse, received[1..])
  {
  }

  /** The inner `for` loop over the lines of one read. */
  method ConsumeRead(parse: Parser, a: Accumulator, read: string) returns (r: Accumulator)
    ensures r == ApplyAll(a, ReadEvents(parse, read))
  {
    var rest := Split(read, '\n');
    r := a;
    while rest != []
      invariant ApplyAll(r, LinesEvents(parse, rest)) == ApplyAll(a, ReadEvents(parse, read))
      decreases |rest|
    {
      LinesEventsCons(parse, rest);
      ApplyAllAppend(r, LineEvents(parse, rest[0]), LinesEvents(parse, rest[1..]));
      r := ConsumeLine(parse, r, rest[0]);
      rest := rest[1..];
    }
  }

  /** The consumer loop of `handleSendMessage`, read by read and line by
      line: it applies exactly the decoded events of the body, in order. */
  method Consume(parse: Parser, a: Accumulator, received: seq<string>) returns (r: Accumulator)
    ensures r == ApplyAll(a, StreamEvents(parse, received))
  {
    var rest := received;
    r := a;
    while rest != []
      invariant ApplyAll(r, StreamEvents(parse, rest)) == ApplyAll(a, StreamEvents(parse, received))
      decreases |rest|
    {
      StreamEventsCons(parse, rest);
      ApplyAllAppend(r, ReadEvents(parse, rest[0]), StreamEvents(parse, rest[1..]));
      r := ConsumeRead(parse, r, rest[0]);
      rest := rest[1..];
    }
  }

  // ---------------------------------------------------------------- one send

  const DailyQueries: nat := 10

  /** The page state `handleSendMessage` updates. */
  datatype ChatState = ChatState(messages: seq<Message>, loading: bool, streaming: string, remaining: nat)

  /** The page mounts with no turns, nothing streaming and the full daily
      quota, so the first send shows only the user's turn and leaves nine
      queries. */
  function InitialChat(): (c: ChatState)
    ensures c.messages == [] && !c.loading && c.streaming == "" && c.remaining == DailyQueries
    ensures forall m :: BeginSend(c, m).messages == [Message(User, Str(m))]
                        && BeginSend(c, m).remaining == DailyQueries - 1
  {
    ChatState([], false, "", DailyQueries)
  }

  /** What the network delivered: the decoded body reads, and whether the
      request or a read failed after them. */
  datatype Transport = Transport(received: seq<string>, failed: bool)

  /** The state right after the synchronous start of a send: loading, an
      empty buffer, one query used if any was left, the user's turn added. */
  function BeginSend(s: ChatState, message: string): (r: ChatState)
    ensures r.loading && r.streaming == ""
    ensures r.messages == s.messages + [Message(User, Str(message))]
    ensures r.remaining == if s.remaining > 0 then s.remaining - 1 else 0
  {
    ChatState(s.messages + [Message(User, Str(message))], true, "",
              if s.remaining > 0 then s.remaining - 1 else 0)
  }

  /** `handleSendMessage` from start to its `finally`. */
  function Send(parse: Parser, s: ChatState, message: string, t: Transport): (r: ChatState)
    ensures !r.loading
    ensures r.remaining == if s.remaining > 0 then s.remaining - 1 else 0
    ensures |r.messages| > |s.messages|
    ensures r.messages[..|s.messages| + 1] == s.messages + [Message(User, Str(message))]
    ensures t.failed ==> r.messages[|r.messages| - 1] == ErrorMessage(Str(TransportErrorText))
  {
    var begun := BeginSend(s, message);
    var events := StreamEvents(parse, t.received);
    var streamed := ApplyAll(Accumulator(begun.messages, "", begun.streaming), events);
    ApplyAllCommits(Accumulator(begun.messages, "", begun.streaming), events);
    var messages :=
      if t.failed then streamed.messages + [ErrorMessage(Str(TransportErrorText))]
      else streamed.messages;
    assert messages[..|s.messages| + 1] == begun.messages;
    ChatState(messages, false, streamed.streaming, begun.remaining)
  }

  /** Everything a send commits, in order: the user's turn, then one turn per
      final or error event of the body, then the transport error turn if
      the request failed. The buffer is what the events left in it. */
  lemma SendCommitsInOrder(parse: Parser, s: ChatState, message: string, t: Transport)
    ensures var r := Send(parse, s, message, t);
            var events := StreamEvents(parse, t.received);
            && r.messages == s.messages + [Message(User, Str(message))] + Committed(events)
                             + (if t.failed then [ErrorMessage(Str(TransportErrorText))] else [])
            && (r.streaming == "" || r.streaming == ChunkText(events))
  {
    var begun := Accumulator(s.messages + [Message(User, Str(message))], "", "");
    var events := StreamEvents(parse, t.received);
    ApplyAllCommits(begun, events);
    ApplyAllText(begun, events);
    StreamingShowsText(begun, events);
  }

  /** The worked example of a two-chunk answer: one assistant turn with the
      final text and an empty buffer. */
  lemma TwoChunksThenFinal(s: ChatState)
    ensures var a := ApplyAll(Accumulator(s.messages, "", ""),
                              [Chunk(Str("The ")), Chunk(Str("answer is 4.")), Final(Str("The answer is 4."))]);
            a.messages == s.messages + [Message(Assistant, Str("The answer is 4."))] && a.streaming == ""
  {
    ChunksThenFinal(Accumulator(s.messages, "", ""), [Chunk(Str("The ")), Chunk(Str("answer is 4."))],
                    Str("The answer is 4."));
    assert [Chunk(Str("The ")), Chunk(Str("answer is 4."))] + [Final(Str("The answer is 4."))] ==
           [Chunk(Str("The ")), Chunk(Str("answer is 4.")), Final(Str("The answer is 4."))];
  }
}

=== FILE: http.dfy ===
/** What an axios call hands back to the front-end: either the parsed body
    of a successful response, or a rejection that may carry the server's
    response (status and parsed body). Rejections without a response stand
    for network failures and for errors thrown before a request is sent. */
module Http {
  import opened Wrappers
  import opened JsValues

  datatype Response = Response(status: int, data: JsValue)

  datatype HttpError = HttpError(response: Option<Response>)

  datatype Outcome = Resolved(data: JsValue) | Rejected(error: HttpError)

  /** `error.response?.status === code`. */
  predicate HasStatus(e: HttpError, code: int) {
    e.response.Some? && e.response.value.status == code
  }

  /** `error.response?.data?.<key>`: `undefined` when there is no response. */
  function ResponseField(e: HttpError, key: string): JsValue {
    match e.response
    case None => Undefined
    case Some(r) => Prop(r.data, key)
  }
}

=== FILE: js_values.dfy ===
/** JavaScript values as the front-end sees them after `JSON.parse`, with the
    few language rules the decision logic depends on: truthiness, `||`,
    property access, strict equality and string conversion. Numbers are
    modelled as integers. */
module JsValues {

  datatype JsValue =
    | Undefined
    | Null
    | Bool(b: bool)
    | Num(n: int)
    | Str(s: string)
    | Arr(items: seq<JsValue>)
    | Obj(fields: map<string, JsValue>)

  /** `null` or `undefined`: reading a property of one throws a TypeError. */
  predicate Nullish(v: JsValue) {
    v.Undefined? || v.Null?
  }

  /** JavaScript truthiness (`if (v)`, `!v`, `v && ...`). */
  predicate Truthy(v: JsValue) {
    match v
    case Undefined => false
    case Null => false
    case Bool(b) => b
    case Num(n) => n != 0
    case Str(s) => s != ""
    case Arr(_) => true
    case Obj(_) => true
  }

  /** `a || b`: the first operand when it is truthy, else the second. */
  function Or(a: JsValue, b: JsValue): JsValue {
    if Truthy(a) then a else b
  }

  /** `v.key` and `v?.key`: an own field of an object, the `length` of an
      array or string, and `undefined` for everything else, including the
      nullish receivers for which optional chaining stops. */
  function Prop(v: JsValue, key: string): JsValue {
    match v
    case Obj(m) => if key in m then m[key] else Undefined
    case Arr(items) => if key == "length" then Num(|items|) else Undefined
    case Str(s) => if key == "length" then Num(|s|) else Undefined
    case _ => Undefined
  }

  /** `a === b` between two values taken from different places of parsed
      JSON: primitives compare by value, while two arrays or objects are
      distinct references and never strictly equal. */
  predicate StrictEquals(a: JsValue, b: JsValue) {
    !a.Arr? && !a.Obj? && a == b
  }

  /** A value React can render as a child: strings and numbers show as
      text, `null`, `undefined` and booleans show nothing, and an array shows
      its elements. A plain object is rejected: rendering it throws. */
  predicate IsReactChild(v: JsValue)
    decreases v
  {
    match v
    case Obj(_) => false
    case Arr(items) => forall i :: 0 <= i < |items| ==> IsReactChild(items[i])
    case _ => true
  }

  function DigitChar(d: nat): char
    requires d < 10
  {
    "0123456789"[d]
  }

  function NatToDecimal(n: nat): (r: string)
    ensures |r| >= 1
    decreases n
  {
    if n < 10 then [DigitChar(n)] else NatToDecimal(n / 10) + [DigitChar(n % 10)]
  }

  function JoinWithCommas(parts: seq<string>): string {
    if |parts| == 0 then ""
    else if |parts| == 1 then parts[0]
    else parts[0] + "," + JoinWithCommas(parts[1..])
  }

  /** `String(v)`, the conversion done by `+=` on a string, by template
      literals, by `localStorage.setItem` and by computed property keys.
      Array elements that are `null` or `undefined` become empty strings. */
  function ToJsString(v: JsValue): string
    decreases v
  {
    match v
    case Undefined => "undefined"
    case Null => "null"
    case Bool(b) => if b then "true" else "false"
    case Num(n) => if n < 0 then "-" + NatToDecimal(-n) else NatToDecimal(n)
    case Str(s) => s
    case Arr(items) =>
      JoinWithCommas(seq(|items|, i requires 0 <= i < |items| =>
        if Nullish(items[i]) then "" else ToJsString(items[i])))
    case Obj(_) => "[object Object]"
  }
}

=== FILE: login_page.dfy ===
/** The decision logic of `src/components/LoginPage.jsx`: the phone gate
    before an OTP is requested, the six OTP boxes with their auto-verify,
    the handling of the login result, and the resend countdown. Each
    asynchronous handler is one step from the state before the request to
    the state after it, with the request's outcome as a parameter;
    `stringify` stands for `JSON.stringify`. */
module LoginPage {
  import opened Wrappers
  import opened JsValues
  import opened Text
  import opened Http
  import opened Session
  import AuthApi

  const OtpBoxes: nat := 6
  const PhoneLength: nat := 10
  const ResendSeconds: int := 24

  const InvalidPhoneText: string := "Please enter a valid phone number"
  const VerifyFailedText: string := "Failed to verify OTP. Please try again."
  const ChatPath: string := "/chat"
  const RegisterPath: string := "/register"

  datatype LoginState = LoginState(
    phone: string,
    loading: bool,
    otpSent: bool,
    otp: seq<string>,
    timer: int,
    error: JsValue,
    registerPrompt: bool,
    browser: Browser)

  function EmptyOtp(): (boxes: seq<string>)
    ensures |boxes| == OtpBoxes && forall i :: 0 <= i < |boxes| ==> boxes[i] == ""
  {
    seq(OtpBoxes, _ => "")
  }

  /** The state the page mounts with: phone entry, six empty boxes, and a
      countdown that waits at 24 seconds until an OTP is sent. */
  function Initial(b: Browser): (s: LoginState)
    ensures ScreenOf(s) == PhoneEntry && s.phone == "" && s.error == Str("") && !s.loading
    ensures WellFormedOtp(s.otp) && !AllFilled(s.otp)
    ensures s.otp == EmptyOtp()
    ensures Tick(s) == s && s.timer == ResendSeconds
    ensures s.browser == b
  {
    var boxes := EmptyOtp();
    assert boxes[0] == "";
    LoginState("", false, false, boxes, ResendSeconds, Str(""), false, b)
  }

  /** The phone field keeps the digits typed, in order, and nothing else
      changes. */
  function EditPhone(s: LoginState, raw: string): (r: LoginState)
    ensures r.phone == DigitsOnly(raw) && AllDigits(r.phone) && r == s.(phone := r.phone)
  {
    s.(phone := DigitsOnly(raw))
  }

  /** The new state, and whether `sendOTP` was called. */
  datatype SendResult = SendResult(state: LoginState, requested: bool)

  /** `handleSendOTP`: a phone number that is not exactly ten characters
      only sets the error; otherwise the error and the register prompt are
      cleared and `sendOTP` goes through the `api` instance, whose
      interceptors may log out; on success the OTP boxes appear with the
      countdown restarted at 24 seconds. */
  function SendOtp(s: LoginState, now: int, parseDate: string -> Option<int>, o: Outcome): (r: SendResult)
    ensures r.requested <==> |s.phone| == PhoneLength
    ensures !r.requested ==> r.state == s.(error := Str(InvalidPhoneText))
    ensures var sent := AuthApi.ThroughApi(s.browser, now, parseDate, o);
            r.requested ==> && !r.state.loading && !r.state.registerPrompt
                            && r.state.otp == s.otp && r.state.phone == s.phone && r.state.browser == sent.browser
    ensures var sent := AuthApi.ThroughApi(s.browser, now, parseDate, o);
            r.requested && sent.outcome.Resolved? ==>
              r.state.otpSent && r.state.timer == ResendSeconds && r.state.error == Str("") && r.state.browser == s.browser
    ensures var sent := AuthApi.ThroughApi(s.browser, now, parseDate, o);
            r.requested && sent.outcome.Rejected? ==>
              && r.state.otpSent == s.otpSent && r.state.timer == s.timer
              && r.state.error == AuthApi.SendOtp(sent.outcome).error && Truthy(r.state.error)
    ensures r.requested && AuthApi.StaleSession(s.browser, now, parseDate) ==>
              r.state.browser == Logout(s.browser) && r.state.error == Str(AuthApi.SendOtpFallback)
  {
    if s.phone == "" || |s.phone| != PhoneLength then
      SendResult(s.(error := Str(InvalidPhoneText)), false)
    else
      var sent := AuthApi.ThroughApi(s.browser, now, parseDate, o);
      var cleared := s.(loading := true, error := Str(""), registerPrompt := false, browser := sent.browser);
      var after :=
        match AuthApi.SendOtp(sent.outcome)
        case ApiOk(_) => cleared.(otpSent := true, timer := ResendSeconds)
        case ApiFail(e) => cleared.(error := e);
      SendResult(after.(loading := false), true)
  }

  /** Boxes that each hold at most one digit, as typing produces them. */
  predicate WellFormedOtp(boxes: seq<string>) {
    |boxes| == OtpBoxes && forall i :: 0 <= i < |boxes| ==> |boxes[i]| <= 1 && AllDigits(boxes[i])
  }

  predicate AllFilled(boxes: seq<string>) {
    forall i :: 0 <= i < |boxes| ==> boxes[i] != ""
  }

  /** The new state, and the code `handleVerifyOTP` was called with, if any. */
  datatype OtpStep = OtpStep(state: LoginState, verify: Option<string>)

  /** Typing into OTP box `index` (the input keeps digits, then
      `handleOTPChange` runs): more than one digit is ignored; otherwise
      only that box changes, and filling the last box while no box is
      empty verifies the six digits joined in order. */
  function OtpChange(s: LoginState, index: nat, raw: string): (r: OtpStep)
    requires index < OtpBoxes && |s.otp| == OtpBoxes
    ensures |DigitsOnly(raw)| > 1 ==> r == OtpStep(s, None)
    ensures |DigitsOnly(raw)| <= 1 ==> r.state == s.(otp := s.otp[index := DigitsOnly(raw)])
    ensures r.verify.Some? <==>
              |DigitsOnly(raw)| <= 1 && index == OtpBoxes - 1 && DigitsOnly(raw) != "" && AllFilled(r.state.otp)
    ensures r.verify.Some? ==> r.verify.value == Concat(r.state.otp)
  {
    var value := DigitsOnly(raw);
    if |value| > 1 then OtpStep(s, None)
    else
      var boxes := s.otp[index := value];
      var next := s.(otp := boxes);
      if index == OtpBoxes - 1 && value != "" && "" !in boxes then OtpStep(next, Some(Concat(boxes)))
      else OtpStep(next, None)
  }

  /** Typing keeps the boxes well formed, and an auto-verified code is
      always six digits. */
  lemma OtpChangeKeepsSixDigits(s: LoginState, index: nat, raw: string)
    requires index < OtpBoxes && WellFormedOtp(s.otp)
    ensures WellFormedOtp(OtpChange(s, index, raw).state.otp)
    ensures OtpChange(s, index, raw).verify.Some? ==>
              |OtpChange(s, index, raw).verify.value| == OtpBoxes && AllDigits(OtpChange(s, index, raw).verify.value)
  {
  }

  /** The manual verify button is enabled when nothing is loading and no
      box is empty. */
  predicate VerifyEnabled(s: LoginState) {
    !s.loading && "" !in s.otp
  }

  /** Typing only verifies on its own when the manual button would be
      enabled for the same boxes, so both ways verify the same codes. */
  lemma AutoVerifyMatchesButton(s: LoginState, index: nat, raw: string)
    requires index < OtpBoxes && |s.otp| == OtpBoxes && !s.loading
    ensures OtpChange(s, index, raw).verify.Some? ==> VerifyEnabled(OtpChange(s, index, raw).state)
    ensures OtpChange(s, index, raw).verify.Some? ==>
              OtpChange(s, index, raw).verify.value == Concat(OtpChange(s, index, raw).state.otp)
  {
  }

  /** The second half of `handleVerifyOTP`, given what `loginUser` returned:
      success stores the token, expiry and serialised user and opens the
      chat; 'User not found' shows the register prompt and keeps the boxes;
      any other failure, or a thrown error, shows an error and empties the
      boxes. */
  function HandleLogin(s: LoginState, result: AuthApi.LoginResult, stringify: JsValue -> string): (r: LoginState)
    ensures !r.loading && r.phone == s.phone && r.otpSent == s.otpSent && r.timer == s.timer
    ensures result.LoginOk? ==>
              && r.browser.store == s.browser.store[TokenKey := ToJsString(result.accessToken)]
                                                   [ExpiresKey := ToJsString(result.expiresAt)]
                                                   [UserKey := stringify(result.user)]
              && r.browser.location == ChatPath
              && r.otp == s.otp && !r.registerPrompt
    ensures result.LoginFail? && result.error == Str(AuthApi.UserNotFound) ==>
              r.registerPrompt && r.otp == s.otp && r.error == Str("") && r.browser == s.browser
    ensures result.LoginFail? && result.error != Str(AuthApi.UserNotFound) ==>
              && !r.registerPrompt && r.otp == EmptyOtp() && r.browser == s.browser
              && r.error == Or(result.error, Str(AuthApi.LoginFailedFallback)) && Truthy(r.error)
    ensures result.LoginThrows? ==>
              !r.registerPrompt && r.otp == EmptyOtp() && r.error == Str(VerifyFailedText) && r.browser == s.browser
  {
    var started := s.(loading := true, error := Str(""), registerPrompt := false);
    var finished :=
      match result
      case LoginOk(token, expiresAt, user) =>
        var store := started.browser.store[TokenKey := ToJsString(token)]
                                          [ExpiresKey := ToJsString(expiresAt)]
                                          [UserKey := stringify(user)];
        started.(browser := Browser(store, ChatPath))
      case LoginFail(error, _) =>
        if StrictEquals(error, Str(AuthApi.UserNotFound)) then started.(registerPrompt := true)
        else started.(error := Or(error, Str(AuthApi.LoginFailedFallback)), otp := EmptyOtp())
      case LoginThrows => started.(error := Str(VerifyFailedText), otp := EmptyOtp());
    finished.(loading := false)
  }

  /** `handleVerifyOTP`: `loginUser` goes through the `api` instance, so an
      expired stored token or a 401/403 answer has already logged out when
      the result is handled. */
  function VerifyOtp(s: LoginState, now: int, parseDate: string -> Option<int>, o: Outcome,
                     stringify: JsValue -> string): (r: LoginState)
    ensures !r.loading && r.phone == s.phone && r.otpSent == s.otpSent && r.timer == s.timer
    ensures AuthApi.StaleSession(s.browser, now, parseDate) ==>
              && r.browser == Logout(s.browser) && r.error == Str(AuthApi.LoginErrorFallback)
              && r.otp == EmptyOtp() && !r.registerPrompt
    ensures !AuthApi.StaleSession(s.browser, now, parseDate) ==>
              && (o.Rejected? && (HasStatus(o.error, 401) || HasStatus(o.error, 403)) ==> r.browser == Logout(s.browser))
              && (o.Rejected? && !HasStatus(o.error, 401) && !HasStatus(o.error, 403) ==> r.browser == s.browser)
              && (o.Rejected? && HasStatus(o.error, 404) ==> r.registerPrompt && r.otp == s.otp)
              && r == HandleLogin(s.(browser := AuthApi.ThroughApi(s.browser, now, parseDate, o).browser),
                                  AuthApi.LoginUser(o), stringify)
    ensures !AuthApi.StaleSession(s.browser, now, parseDate) && o.Rejected? && HasStatus(o.error, 409) ==>
              && !r.registerPrompt && r.otp == EmptyOtp()
              && r.error == if AuthApi.LoginUser(o).LoginThrows? then Str(VerifyFailedText)
                            else Str(AuthApi.ActiveSessionExists)
    ensures (&& !AuthApi.StaleSession(s.browser, now, parseDate) && o.Rejected?
             && !HasStatus(o.error, 404) && !HasStatus(o.error, 409)
             && Or(ResponseField(o.error, "error"), Str(AuthApi.LoginErrorFallback)) != Str(AuthApi.UserNotFound)) ==>
              && !r.registerPrompt && r.otp == EmptyOtp()
              && r.error == Or(ResponseField(o.error, "error"), Str(AuthApi.LoginErrorFallback))
  {
    var sent := AuthApi.ThroughApi(s.browser, now, parseDate, o);
    HandleLogin(s.(browser := sent.browser), AuthApi.LoginUser(sent.outcome), stringify)
  }

  /** A successful login authenticates the browser at every instant up to
      the stored expiry. */
  lemma LoginAuthenticates(s: LoginState, token: JsValue, expiresAt: JsValue, user: JsValue,
                           stringify: JsValue -> string, now: int, t: int, parseDate: string -> Option<int>)
    requires ToJsString(token) != ""
    requires ToJsString(expiresAt) != "" && parseDate(ToJsString(expiresAt)) == Some(t) && now <= t
    ensures IsAuthenticated(HandleLogin(s, AuthApi.LoginOk(token, expiresAt, user), stringify).browser.store,
                            now, parseDate)
  {
    var r := HandleLogin(s, AuthApi.LoginOk(token, expiresAt, user), stringify);
    assert r.browser.store[TokenKey] == ToJsString(token);
    assert r.browser.store[ExpiresKey] == ToJsString(expiresAt);
  }

  /** One second of the countdown: it runs only after an OTP was sent and
      stops at zero. */
  function Tick(s: LoginState): (r: LoginState)
    ensures s.otpSent && s.timer > 0 ==> r == s.(timer := s.timer - 1)
    ensures !(s.otpSent && s.timer > 0) ==> r == s
  {
    if s.otpSent && s.timer > 0 then s.(timer := s.timer - 1) else s
  }

  function Ticks(s: LoginState, n: nat): LoginState
    decreases n
  {
    if n == 0 then s else Ticks(Tick(s), n - 1)
  }

  /** After `n` seconds the countdown shows `timer - n`, or zero once it has
      run out; it never goes negative. */
  lemma {:induction false} CountdownReachesZero(s: LoginState, n: nat)
    requires s.otpSent && s.timer >= 0
    ensures Ticks(s, n).timer == if s.timer >= n then s.timer - n else 0
    ensures Ticks(s, n) == s.(timer := Ticks(s, n).timer)
    decreases n
  {
    if n > 0 {
      CountdownReachesZero(Tick(s), n - 1);
    }
  }

  /** The resend link: it sends again only once the countdown is at zero. */
  function Resend(s: LoginState, now: int, parseDate: string -> Option<int>, o: Outcome): (r: SendResult)
    ensures s.timer != 0 ==> r == SendResult(s, false)
    ensures s.timer == 0 ==> r == SendOtp(s, now, parseDate, o)
  {
    if s.timer == 0 then SendOtp(s, now, parseDate, o) else SendResult(s, false)
  }

  /** "Go Back" on the register prompt: back to phone entry with empty
      boxes; the phone number, the countdown, the error and the browser are
      kept. */
  function GoBack(s: LoginState): (r: LoginState)
    ensures ScreenOf(r) == PhoneEntry && r.otp == EmptyOtp()
    ensures r == s.(registerPrompt := false, otpSent := false, otp := r.otp)
  {
    s.(registerPrompt := false, otpSent := false, otp := EmptyOtp())
  }

  /** "Edit" next to the phone number: back to phone entry. */
  function EditNumber(s: LoginState): (r: LoginState)
    ensures !r.otpSent && r == s.(otpSent := false)
  {
    s.(otpSent := false)
  }

  /** What "Register Now" passes to the registration page. */
  datatype Handoff = Handoff(path: string, phoneNumber: string, verifiedOtp: string)

  function RegisterHandoff(s: LoginState): (h: Handoff)
    ensures h.path == RegisterPath && StartsWith(h.phoneNumber, AuthApi.CountryCode)
    ensures h.phoneNumber[|AuthApi.CountryCode|..] == s.phone
    ensures h.verifiedOtp == Concat(s.otp)
  {
    var phone := AuthApi.CountryCode + s.phone;
    assert phone[..|AuthApi.CountryCode|] == AuthApi.CountryCode;
    Handoff(RegisterPath, phone, Concat(s.otp))
  }

  datatype Screen = RegisterPrompt | PhoneEntry | OtpEntry

  /** The register prompt takes precedence over the two login steps. */
  function ScreenOf(s: LoginState): (v: Screen)
    ensures v == RegisterPrompt <==> s.registerPrompt
    ensures v == OtpEntry <==> !s.registerPrompt && s.otpSent
  {
    if s.registerPrompt then RegisterPrompt else if !s.otpSent then PhoneEntry else OtpEntry
  }
}

=== FILE: practice.dfy ===
/** `PracticeResponse` of `src/components/features/ChatMessages.jsx`: the
    payload's questions, the answer map keyed by question id, the submit
    gate and the score. Answers are stored under JavaScript property keys,
    that is under the string form of each question id, and compared with
    `===` against the question's `correctAnswer`. */
module Practice {
  import opened Wrappers
  import opened JsValues

  /** What the quiz reads from one question: its id, its correct answer,
      the ids of its options in order, and the explanation shown once the
      results are out. */
  datatype Question = Question(id: JsValue, correctAnswer: JsValue, optionIds: seq<JsValue>, explanation: JsValue)

  /** What `PracticeResponse` shows. `RenderError` is a render that throws,
      after which the error boundary shows its fixed notice. */
  datatype PracticeView =
    | NoQuestions
    | Quiz(questions: seq<Question>)
    | RenderError

  const DefaultTopic: string := "Practice Questions"

  /** One option button, `{option.id}. {option.text}`: a `null` option throws,
      and so does an id or a text that React cannot render. */
  predicate OptionRenders(option: JsValue) {
    !Nullish(option) && IsReactChild(Prop(option, "id")) && IsReactChild(Prop(option, "text"))
  }

  /** The fields one rendered question needs; `None` where rendering it
      throws: a `null` question, a question text React cannot render,
      `options` that is not an array, or an option that does not render. */
  function DecodeQuestion(v: JsValue): (q: Option<Question>)
    ensures q.Some? <==>
              && !Nullish(v)
              && IsReactChild(Prop(v, "question"))
              && Prop(v, "options").Arr?
              && forall i :: 0 <= i < |Prop(v, "options").items| ==> OptionRenders(Prop(v, "options").items[i])
    ensures q.Some? ==> q.value.id == Prop(v, "id") && q.value.correctAnswer == Prop(v, "correctAnswer")
                        && q.value.explanation == Prop(v, "explanation")
    ensures q.Some? ==> |q.value.optionIds| == |Prop(v, "options").items|
                        && forall i :: 0 <= i < |q.value.optionIds| ==>
                             q.value.optionIds[i] == Prop(Prop(v, "options").items[i], "id")
  {
    if Nullish(v) then None
    else
      var options := Prop(v, "options");
      if !IsReactChild(Prop(v, "question")) || !options.Arr? then None
      else if exists i :: 0 <= i < |options.items| && !OptionRenders(options.items[i]) then None
      else
        Some(Question(Prop(v, "id"), Prop(v, "correctAnswer"),
                      seq(|options.items|, i requires 0 <= i < |options.items| => Prop(options.items[i], "id")),
                      Prop(v, "explanation")))
  }

  /** All questions of the list, or `None` if any of them cannot render. */
  function DecodeAll(vs: seq<JsValue>): (r: Option<seq<Question>>)
    ensures r.Some? <==> forall i :: 0 <= i < |vs| ==> DecodeQuestion(vs[i]).Some?
    ensures r.Some? ==> |r.value| == |vs|
    ensures r.Some? ==> forall i :: 0 <= i < |vs| ==> r.value[i] == DecodeQuestion(vs[i]).value
  {
    if |vs| == 0 then Some([])
    else
      match DecodeQuestion(vs[0])
      case None => None
      case Some(q) =>
        match DecodeAll(vs[1..])
        case None => None
        case Some(rest) => Some([q] + rest)
  }

  /** Every question's explanation can be rendered, as the results view
      needs. */
  predicate ExplanationsRender(questions: seq<Question>) {
    forall i :: 0 <= i < |questions| ==> IsReactChild(questions[i].explanation)
  }

  /** The view for a practice payload, before or after the results are
      shown: `!data.questions?.length` gives the "No questions available"
      notice; a renderable heading over an array of renderable questions
      gives the quiz, provided that once the results are shown every
      explanation renders too; anything else makes the render throw. */
  function PracticeOf(data: JsValue, showResults: bool): (v: PracticeView)
    ensures v.NoQuestions? <==> !Truthy(Prop(Prop(data, "questions"), "length"))
    ensures Nullish(Prop(data, "questions")) || Prop(data, "questions") == Arr([]) ==> v.NoQuestions?
    ensures v.Quiz? ==> && Prop(data, "questions").Arr?
                        && |v.questions| == |Prop(data, "questions").items| > 0
                        && (forall i :: 0 <= i < |v.questions| ==>
                              && DecodeQuestion(Prop(data, "questions").items[i]).Some?
                              && v.questions[i] == DecodeQuestion(Prop(data, "questions").items[i]).value)
                        && IsReactChild(Or(Prop(data, "topic"), Str(DefaultTopic)))
                        && (showResults ==> ExplanationsRender(v.questions))
    ensures (&& Prop(data, "questions").Arr? && |Prop(data, "questions").items| > 0
             && IsReactChild(Or(Prop(data, "topic"), Str(DefaultTopic)))
             && DecodeAll(Prop(data, "questions").items).Some?
             && (showResults ==> ExplanationsRender(DecodeAll(Prop(data, "questions").items).value)))
            ==> v.Quiz?
  {
    var questions := Prop(data, "questions");
    if !Truthy(Prop(questions, "length")) then NoQuestions
    else if !IsReactChild(Or(Prop(data, "topic"), Str(DefaultTopic))) || !questions.Arr? then RenderError
    else
      match DecodeAll(questions.items)
      case None => RenderError
      case Some(qs) => if showResults && !ExplanationsRender(qs) then RenderError else Quiz(qs)
  }

  /** Showing the results only adds the explanations: a quiz that renders
      with its results rendered the same questions before them. */
  lemma ResultsKeepTheQuestions(data: JsValue)
    requires PracticeOf(data, true).Quiz?
    ensures PracticeOf(data, false) == PracticeOf(data, true)
  {
  }

  /** A question whose text is an object cannot be rendered, so the whole
      quiz is replaced by the error notice. */
  lemma ObjectQuestionTextThrows(data: JsValue, showResults: bool, i: nat, fields: map<string, JsValue>)
    requires Prop(data, "questions").Arr? && i < |Prop(data, "questions").items|
    requires Prop(Prop(data, "questions").items[i], "question") == Obj(fields)
    ensures PracticeOf(data, showResults) == RenderError
  {
    assert DecodeQuestion(Prop(data, "questions").items[i]).None?;
  }

  // ---------------------------------------------------------------- quiz state

  /** `selectedAnswers` keyed by property key, and `showResults`. */
  datatype QuizState = QuizState(answers: map<string, JsValue>, showResults: bool)

  const Initial: QuizState := QuizState(map[], false)

  /** The property key a question id is stored under. */
  function Key(id: JsValue): string {
    ToJsString(id)
  }

  /** `selectedAnswers[id]`: `undefined` when nothing is stored. */
  function AnswerOf(answers: map<string, JsValue>, id: JsValue): JsValue {
    if Key(id) in answers then answers[Key(id)] else Undefined
  }

  /** `handleAnswerSelect`: while answering, records the option for the
      question, replacing an earlier choice and leaving every other
      question's answer as it was; once results are shown it does nothing. */
  function Select(s: QuizState, questionId: JsValue, answerId: JsValue): (r: QuizState)
    ensures s.showResults ==> r == s
    ensures r.showResults == s.showResults
    ensures !s.showResults ==> AnswerOf(r.answers, questionId) == answerId
    ensures !s.showResults ==> r.answers.Keys == s.answers.Keys + {Key(questionId)}
    ensures forall k :: k in s.answers && k != Key(questionId) ==> r.answers[k] == s.answers[k]
  {
    if !s.showResults then s.(answers := s.answers[Key(questionId) := answerId]) else s
  }

  /** The submit button is enabled when as many keys are answered as there
      are questions (and it is only shown before results). */
  predicate CanSubmit(s: QuizState, questions: seq<Question>) {
    !s.showResults && |s.answers.Keys| == |questions|
  }

  /** A click on submit: it only ever turns results on, and only when the
      button is enabled. */
  function Submit(s: QuizState, questions: seq<Question>): (r: QuizState)
    ensures r.answers == s.answers
    ensures r.showResults <==> s.showResults || |s.answers.Keys| == |questions|
  {
    if CanSubmit(s, questions) then s.(showResults := true) else s
  }

  /** The stored answer for a question strictly equals its correct answer. */
  predicate IsCorrect(answers: map<string, JsValue>, q: Question) {
    StrictEquals(AnswerOf(answers, q.id), q.correctAnswer)
  }

  /** The `reduce` over the questions, one point per correct answer. */
  function CountCorrect(answers: map<string, JsValue>, questions: seq<Question>): (n: nat)
    ensures n <= |questions|
  {
    if |questions| == 0 then 0
    else
      CountCorrect(answers, questions[..|questions| - 1])
      + (if IsCorrect(answers, questions[|questions| - 1]) then 1 else 0)
  }

  /** The positions of the questions answered correctly. */
  function CorrectPositions(answers: map<string, JsValue>, questions: seq<Question>): set<int> {
    set i | 0 <= i < |questions| && IsCorrect(answers, questions[i])
  }

  /** The `reduce` counts exactly the questions answered correctly. */
  lemma {:induction false} CountCorrectCounts(answers: map<string, JsValue>, questions: seq<Question>)
    ensures CountCorrect(answers, questions) == |CorrectPositions(answers, questions)|
  {
    if |questions| > 0 {
      var last := |questions| - 1;
      var init := questions[..last];
      CountCorrectCounts(answers, init);
      var before := CorrectPositions(answers, init);
      assert forall i :: 0 <= i < |init| ==> init[i] == questions[i];
      if IsCorrect(answers, questions[last]) {
        assert CorrectPositions(answers, questions) == before + {last};
      } else {
        assert CorrectPositions(answers, questions) == before;
      }
    }
  }

  /** `getScore`: zero until results are shown, then the number of
      questions answered correctly, never more than there are questions. */
  function Score(s: QuizState, questions: seq<Question>): (n: nat)
    ensures !s.showResults ==> n == 0
    ensures s.showResults ==> n == |CorrectPositions(s.answers, questions)|
    ensures n <= |questions|
  {
    if !s.showResults then 0
    else
      CountCorrectCounts(s.answers, questions);
      CountCorrect(s.answers, questions)
  }

  /** Full marks exactly when every question is answered correctly. */
  lemma {:induction false} FullMarksIff(answers: map<string, JsValue>, questions: seq<Question>)
    ensures CountCorrect(answers, questions) == |questions| <==>
            forall i :: 0 <= i < |questions| ==> IsCorrect(answers, questions[i])
  {
    if |questions| > 0 {
      var init := questions[..|questions| - 1];
      FullMarksIff(answers, init);
      assert forall i :: 0 <= i < |init| ==> init[i] == questions[i];
    }
  }

  /** Zero marks exactly when no question is answered correctly. */
  lemma {:induction false} ZeroMarksIff(answers: map<string, JsValue>, questions: seq<Question>)
    ensures CountCorrect(answers, questions) == 0 <==>
            forall i :: 0 <= i < |questions| ==> !IsCorrect(answers, questions[i])
  {
    if |questions| > 0 {
      var init := questions[..|questions| - 1];
      ZeroMarksIff(answers, init);
      assert forall i :: 0 <= i < |init| ==> init[i] == questions[i];
    }
  }

  /** The keys the questions' ids are stored under; never more of them than
      there are questions. */
  function QuestionKeys(questions: seq<Question>): (keys: set<string>)
    ensures |keys| <= |questions|
    ensures forall i :: 0 <= i < |questions| ==> Key(questions[i].id) in keys
  {
    if |questions| == 0 then {}
    else QuestionKeys(questions[..|questions| - 1]) + {Key(questions[|questions| - 1].id)}
  }

  /** The answers are all for questions of this quiz, as they are when
      every selection came from one of its option buttons. */
  predicate AnswersWithin(s: QuizState, questions: seq<Question>) {
    s.answers.Keys <= QuestionKeys(questions)
  }

  /** Selecting through a question's own button keeps the answers within
      the quiz. */
  lemma SelectStaysWithin(s: QuizState, questions: seq<Question>, i: int, answerId: JsValue)
    requires AnswersWithin(s, questions)
    requires 0 <= i < |questions|
    ensures AnswersWithin(Select(s, questions[i].id, answerId), questions)
  {
  }

  lemma {:induction false} SubsetNotLarger(a: set<string>, b: set<string>)
    requires a <= b
    ensures |a| <= |b|
    decreases a
  {
    if a != {} {
      var x :| x in a;
      SubsetNotLarger(a - {x}, b - {x});
    }
  }

  /** Submitting is only possible once every question has an answer:
      partial answers keep the quiz in the answering state. */
  lemma SubmitNeedsEveryAnswer(s: QuizState, questions: seq<Question>)
    requires AnswersWithin(s, questions)
    requires CanSubmit(s, questions)
    ensures forall i :: 0 <= i < |questions| ==> Key(questions[i].id) in s.answers
  {
    var qk := QuestionKeys(questions);
    forall i | 0 <= i < |questions| ensures Key(questions[i].id) in s.answers {
      var k := Key(questions[i].id);
      if k !in s.answers {
        SubsetNotLarger(s.answers.Keys, qk - {k});
        assert false;
      }
    }
  }

  /** A quiz nobody has answered cannot be submitted. */
  lemma EmptyAnswersCannotSubmit(questions: seq<Question>)
    requires |questions| > 0
    ensures Submit(Initial, questions) == Initial
  {
  }
}

=== FILE: register_page.dfy ===
/** The decision logic of `src/components/RegisterPage.jsx`: the phone gate,
    the OTP boxes and their verification, the ordered validation of the
    profile form, registration, and which screen and back button show. */
module RegisterPage {
  import opened Wrappers
  import opened JsValues
  import opened Text
  import opened Http
  import opened Session
  import AuthApi
  import LoginPage

  const OtpBoxes: nat := 6
  const PhoneLength: nat := 10
  const ResendSeconds: int := 24

  const InvalidPhoneText: string := "Please enter a valid phone number"
  const VerifyFailedText: string := "Failed to verify OTP. Please try again."
  const NameMissing: string := "Please enter your name"
  const EmailMissing: string := "Please enter your email"
  const ClassMissing: string := "Please select your class"
  const BoardMissing: string := "Please select your board"
  const AddressMissing: string := "Please enter your address"

  datatype Form = Form(phone: string, name: string, email: string, klass: string, board: string, address: string)

  datatype RegState = RegState(
    step: int,
    form: Form,
    otpSent: bool,
    otp: seq<string>,
    timer: int,
    loading: bool,
    error: JsValue,
    success: bool,
    alreadyRegistered: bool,
    browser: Browser)

  /** The state the page mounts with: the phone step without a back button,
      an empty form, six empty boxes, and a countdown that waits at 24
      seconds until an OTP is sent. */
  function Initial(b: Browser): (s: RegState)
    ensures ScreenOf(s) == PhoneStep && !BackVisible(s) && !s.otpSent && !s.loading
    ensures s.form == Form("", "", "", "", "", "") && Validate(s.form) == Some(NameMissing)
    ensures |s.otp| == OtpBoxes && !LoginPage.AllFilled(s.otp)
    ensures s.otp == LoginPage.EmptyOtp()
    ensures Tick(s) == s && s.timer == ResendSeconds && s.error == Str("")
    ensures s.browser == b
  {
    var boxes := LoginPage.EmptyOtp();
    assert boxes[0] == "";
    RegState(1, Form("", "", "", "", "", ""), false, boxes, ResendSeconds, false, Str(""), false, false, b)
  }

  /** The phone field keeps the digits typed, in order, and nothing else
      changes. */
  function EditPhone(s: RegState, raw: string): (r: RegState)
    ensures r.form.phone == DigitsOnly(raw) && AllDigits(r.form.phone)
    ensures r == s.(form := s.form.(phone := r.form.phone))
  {
    s.(form := s.form.(phone := DigitsOnly(raw)))
  }

  /** `handleSendOTP`: the same ten-character gate as the login page; the
      request goes through the `api` instance, whose interceptors may log
      out; on success the OTP boxes appear and the countdown restarts at 24. */
  function SendOtp(s: RegState, now: int, parseDate: string -> Option<int>, o: Outcome): (r: RegState)
    ensures |s.form.phone| != PhoneLength ==> r == s.(error := Str(InvalidPhoneText))
    ensures var sent := AuthApi.ThroughApi(s.browser, now, parseDate, o);
            |s.form.phone| == PhoneLength ==>
              && !r.loading && r.form == s.form && r.otp == s.otp && r.step == s.step
              && r.browser == sent.browser
    ensures var sent := AuthApi.ThroughApi(s.browser, now, parseDate, o);
            |s.form.phone| == PhoneLength && sent.outcome.Resolved? ==>
              r.otpSent && r.timer == ResendSeconds && r.error == Str("") && r.browser == s.browser
    ensures var sent := AuthApi.ThroughApi(s.browser, now, parseDate, o);
            |s.form.phone| == PhoneLength && sent.outcome.Rejected? ==>
              r.otpSent == s.otpSent && r.error == AuthApi.SendOtp(sent.outcome).error && Truthy(r.error)
    ensures |s.form.phone| == PhoneLength && AuthApi.StaleSession(s.browser, now, parseDate) ==>
              r.browser == Logout(s.browser) && r.error == Str(AuthApi.SendOtpFallback)
  {
    if s.form.phone == "" || |s.form.phone| != PhoneLength then s.(error := Str(InvalidPhoneText))
    else
      var sent := AuthApi.ThroughApi(s.browser, now, parseDate, o);
      var started := s.(loading := true, error := Str(""), browser := sent.browser);
      var after :=
        match AuthApi.SendOtp(sent.outcome)
        case ApiOk(_) => started.(otpSent := true, timer := ResendSeconds)
        case ApiFail(e) => started.(error := e);
      after.(loading := false)
  }

  /** Resend is only possible once the countdown is at zero. */
  function Resend(s: RegState, now: int, parseDate: string -> Option<int>, o: Outcome): (r: RegState)
    ensures s.timer != 0 ==> r == s
    ensures s.timer == 0 ==> r == SendOtp(s, now, parseDate, o)
  {
    if s.timer == 0 then SendOtp(s, now, parseDate, o) else s
  }

  function Tick(s: RegState): (r: RegState)
    ensures s.otpSent && s.timer > 0 ==> r == s.(timer := s.timer - 1)
    ensures !(s.otpSent && s.timer > 0) ==> r == s
  {
    if s.otpSent && s.timer > 0 then s.(timer := s.timer - 1) else s
  }

  /** The new state, and the code handed to `handleOTPVerification`, if any. */
  datatype OtpStep = OtpStep(state: RegState, verify: Option<string>)

  /** Typing into OTP box `index`: the box keeps the digits of what was
      typed and no other box changes; the code is verified when the last
      box received input and no box is empty. */
  function OtpBox(s: RegState, index: nat, raw: string): (r: OtpStep)
    requires index < OtpBoxes && |s.otp| == OtpBoxes
    ensures r.state == s.(otp := s.otp[index := DigitsOnly(raw)])
    ensures forall i :: 0 <= i < OtpBoxes ==> AllDigits(r.state.otp[i]) || r.state.otp[i] == s.otp[i]
    ensures r.verify.Some? <==> index == OtpBoxes - 1 && raw != "" && "" !in r.state.otp
    ensures r.verify.Some? ==> r.verify.value == Concat(r.state.otp) && r.verify.value != ""
  {
    var boxes := s.otp[index := DigitsOnly(raw)];
    var next := s.(otp := boxes);
    assert boxes[0] in boxes;
    if index == OtpBoxes - 1 && raw != "" && "" !in boxes then OtpStep(next, Some(Concat(boxes)))
    else OtpStep(next, None)
  }

  /** Typing a non-digit into the last box never verifies: the box stays
      empty. */
  lemma NonDigitNeverVerifies(s: RegState, raw: string)
    requires |s.otp| == OtpBoxes
    requires forall i :: 0 <= i < |raw| ==> !IsDigit(raw[i])
    ensures OtpBox(s, OtpBoxes - 1, raw).verify.None?
  {
    assert OtpBox(s, OtpBoxes - 1, raw).state.otp[OtpBoxes - 1] == "";
  }

  /** `handleOTPVerification`: `verifyOTP` goes through the `api` instance
      (an expired stored token, or a 401 or 403 answer, logs out); then an
      existing user leads to the already-registered screen, a new one to
      step 2, a failure to an error with all six boxes emptied. A `null`
      body makes `data.isExistingUser` throw, which only sets the generic
      error. */
  function VerifyOtp(s: RegState, now: int, parseDate: string -> Option<int>, o: Outcome): (r: RegState)
    ensures !r.loading && r.form == s.form && r.success == s.success
    ensures r.browser == AuthApi.ThroughApi(s.browser, now, parseDate, o).browser
    ensures var sent := AuthApi.ThroughApi(s.browser, now, parseDate, o);
            sent.outcome.Resolved? && !Nullish(o.data) && Truthy(Prop(o.data, "isExistingUser")) ==>
              r.alreadyRegistered && r.step == s.step && r.otp == s.otp
    ensures var sent := AuthApi.ThroughApi(s.browser, now, parseDate, o);
            sent.outcome.Resolved? && !Nullish(o.data) && !Truthy(Prop(o.data, "isExistingUser")) ==>
              r.step == 2 && r.alreadyRegistered == s.alreadyRegistered && r.otp == s.otp
    ensures var sent := AuthApi.ThroughApi(s.browser, now, parseDate, o);
            sent.outcome.Resolved? && Nullish(o.data) ==>
              r.error == Str(VerifyFailedText) && r.otp == s.otp && r.step == s.step
    ensures var sent := AuthApi.ThroughApi(s.browser, now, parseDate, o);
            sent.outcome.Rejected? ==>
              && r.otp == LoginPage.EmptyOtp() && r.step == s.step
              && r.error == AuthApi.VerifyOtp(sent.outcome).error && Truthy(r.error)
    ensures AuthApi.StaleSession(s.browser, now, parseDate) ==>
              r.browser == Logout(s.browser) && r.error == Str(AuthApi.VerifyOtpFallback)
  {
    var sent := AuthApi.ThroughApi(s.browser, now, parseDate, o);
    var started := s.(loading := true, error := Str(""), browser := sent.browser);
    var after :=
      match AuthApi.VerifyOtp(sent.outcome)
      case ApiOk(data) =>
        if Nullish(data) then started.(error := Str(VerifyFailedText))
        else if Truthy(Prop(data, "isExistingUser")) then started.(alreadyRegistered := true)
        else started.(step := 2)
      case ApiFail(e) => started.(error := e, otp := LoginPage.EmptyOtp());
    after.(loading := false)
  }

  /** The checks of `handleRegistration`, in order: name, email, class,
      board, address; name, email and address are trimmed, class and board
      are only checked for being empty. The first failing check decides. */
  function Validate(f: Form): (r: Option<string>)
    ensures r == Some(NameMissing) <==> Blank(f.name)
    ensures r == Some(EmailMissing) <==> !Blank(f.name) && Blank(f.email)
    ensures r == Some(ClassMissing) <==> !Blank(f.name) && !Blank(f.email) && f.klass == ""
    ensures r == Some(BoardMissing) <==> !Blank(f.name) && !Blank(f.email) && f.klass != "" && f.board == ""
    ensures r == Some(AddressMissing) <==>
              !Blank(f.name) && !Blank(f.email) && f.klass != "" && f.board != "" && Blank(f.address)
    ensures r.None? <==>
              !Blank(f.name) && !Blank(f.email) && f.klass != "" && f.board != "" && !Blank(f.address)
  {
    if Trim(f.name) == "" then Some(NameMissing)
    else if Trim(f.email) == "" then Some(EmailMissing)
    else if f.klass == "" then Some(ClassMissing)
    else if f.board == "" then Some(BoardMissing)
    else if Trim(f.address) == "" then Some(AddressMissing)
    else None
  }

  /** A blank name is rejected but a class or board of blanks is accepted. */
  lemma ClassAndBoardAreNotTrimmed(phone: string)
    ensures Validate(Form(phone, " ", "a@b.in", "10", "CBSE", "Delhi")) == Some(NameMissing)
    ensures Validate(Form(phone, "Asha", "a@b.in", " ", " ", "Delhi")).None?
  {
    var named := Form(phone, "Asha", "a@b.in", " ", " ", "Delhi");
    assert !Blank(named.name) by { assert !IsWhitespace(named.name[0]); }
    assert !Blank(named.email) by { assert !IsWhitespace(named.email[0]); }
    assert !Blank(named.address) by { assert !IsWhitespace(named.address[0]); }
    var unnamed := Form(phone, " ", "a@b.in", "10", "CBSE", "Delhi");
    assert Blank(unnamed.name);
  }

  /** The form as the object sent to `registerUser`. */
  function FormFields(f: Form): map<string, string> {
    map["phone_number" := f.phone, "name" := f.name, "email" := f.email,
        "class" := f.klass, "board_name" := f.board, "address" := f.address]
  }

  /** Registration sends every field as entered, except the phone number,
      which goes out with the country code. */
  lemma RegistrationSendsFormattedPhone(f: Form)
    ensures AuthApi.RegisterBody(FormFields(f)) ==
            Some(FormFields(f)["phone_number" := AuthApi.FormatPhone(f.phone)])
  {
  }

  /** `handleRegistration`: a failed check only sets its message and sends
      nothing; a valid form is registered through the `api` instance, and
      success shows the success screen, while a failure shows the server's
      error. */
  function Register(s: RegState, now: int, parseDate: string -> Option<int>, o: Outcome): (r: RegState)
    ensures Validate(s.form).Some? ==> r == s.(error := Str(Validate(s.form).value))
    ensures Validate(s.form).None? ==>
              !r.loading && r.form == s.form && r.browser == AuthApi.ThroughApi(s.browser, now, parseDate, o).browser
    ensures Validate(s.form).None? && AuthApi.ThroughApi(s.browser, now, parseDate, o).outcome.Resolved? ==>
              r.success && r.error == Str("")
    ensures var sent := AuthApi.ThroughApi(s.browser, now, parseDate, o);
            Validate(s.form).None? && sent.outcome.Rejected? ==>
              && r.success == s.success && Truthy(r.error)
              && r.error == AuthApi.RegisterUser(FormFields(s.form), sent.outcome).error
    ensures Validate(s.form).None? && AuthApi.StaleSession(s.browser, now, parseDate) ==>
              r.browser == Logout(s.browser) && r.error == Str(AuthApi.RegisterFallback)
  {
    match Validate(s.form)
    case Some(message) => s.(error := Str(message))
    case None =>
      var sent := AuthApi.ThroughApi(s.browser, now, parseDate, o);
      var started := s.(loading := true, error := Str(""), browser := sent.browser);
      var after :=
        match AuthApi.RegisterUser(FormFields(s.form), sent.outcome)
        case ApiOk(_) => started.(success := true)
        case ApiFail(e) => started.(error := e);
      after.(loading := false)
  }

  datatype Screen = SuccessScreen | AlreadyRegisteredScreen | PhoneStep | ProfileStep

  /** Success wins over already-registered, which wins over the step. */
  function ScreenOf(s: RegState): (v: Screen)
    ensures v == SuccessScreen <==> s.success
    ensures v == AlreadyRegisteredScreen <==> !s.success && s.alreadyRegistered
    ensures v == PhoneStep <==> !s.success && !s.alreadyRegistered && s.step == 1
  {
    if s.success then SuccessScreen
    else if s.alreadyRegistered then AlreadyRegisteredScreen
    else if s.step == 1 then PhoneStep
    else ProfileStep
  }

  /** The back button shows past step 1 until registration succeeds. */
  predicate BackVisible(s: RegState) {
    !s.success && s.step > 1
  }

  /** The back button goes one step back; without it nothing changes. */
  function Back(s: RegState): (r: RegState)
    ensures BackVisible(s) ==> r == s.(step := s.step - 1) && r.step >= 1
    ensures !BackVisible(s) ==> r == s
  {
    if BackVisible(s) then s.(step := s.step - 1) else s
  }

  /** A new user who verified, with no expired token stored, is on the
      profile step with the back button, and the browser is untouched. */
  lemma NewUserReachesProfile(s: RegState, data: JsValue, now: int, parseDate: string -> Option<int>)
    requires !s.success && !s.alreadyRegistered && !AuthApi.StaleSession(s.browser, now, parseDate)
    requires !Nullish(data) && !Truthy(Prop(data, "isExistingUser"))
    ensures ScreenOf(VerifyOtp(s, now, parseDate, Resolved(data))) == ProfileStep
    ensures BackVisible(VerifyOtp(s, now, parseDate, Resolved(data)))
    ensures ScreenOf(Back(VerifyOtp(s, now, parseDate, Resolved(data)))) == PhoneStep
    ensures VerifyOtp(s, now, parseDate, Resolved(data)).browser == s.browser
  {
  }

  /** "Use Different Number" on the already-registered screen: back to
      the phone step's entry with empty boxes; the form, the step, the
      countdown and the browser are kept. */
  function UseDifferentNumber(s: RegState): (r: RegState)
    ensures !s.success ==> ScreenOf(r) != AlreadyRegisteredScreen
    ensures r.otp == LoginPage.EmptyOtp()
    ensures r == s.(alreadyRegistered := false, otpSent := false, otp := r.otp)
  {
    s.(alreadyRegistered := false, otpSent := false, otp := LoginPage.EmptyOtp())
  }
}

=== FILE: session.dfy ===
/** The credential helpers of `src/utils/auth.js`. The browser's
    `localStorage` is an explicit string-to-string map and the redirect done
    through `window.location.href` is a `location` field. Time is an integer
    instant; turning a stored expiry string into an instant is the
    `parseDate` parameter (`None` standing for an Invalid Date). */
module Session {
  import opened Wrappers
  import opened JsValues
  import opened Http

  type Store = map<string, string>

  datatype Browser = Browser(store: Store, location: string)

  const TokenKey: string := "token"
  const UserKey: string := "user"
  const ExpiresKey: string := "expires_at"
  const LoginPath: string := "/login"

  /** The three keys a logout removes. */
  const SessionKeys: set<string> := {TokenKey, UserKey, ExpiresKey}

  /** `localStorage.getItem(key)`; `None` is the `null` of a missing key. */
  function GetItem(store: Store, key: string): Option<string> {
    if key in store then Some(store[key]) else None
  }

  /** `localStorage.removeItem(key)`. */
  function RemoveItem(store: Store, key: string): Store {
    map k | k in store && k != key :: store[k]
  }

  /** A stored item that is present and non-empty, i.e. truthy in JavaScript. */
  predicate HasTruthyItem(store: Store, key: string) {
    key in store && store[key] != ""
  }

  /** `logout()`: removes exactly the token, the user and the expiry, keeps
      every other stored item as it was, and redirects to the login page. */
  function Logout(b: Browser): (r: Browser)
    ensures r.store.Keys == b.store.Keys - SessionKeys
    ensures forall k :: k in r.store ==> r.store[k] == b.store[k]
    ensures r.location == LoginPath
  {
    var s := RemoveItem(RemoveItem(RemoveItem(b.store, TokenKey), UserKey), ExpiresKey);
    Browser(s, LoginPath)
  }

  /** Logging out twice is the same as logging out once. */
  lemma LogoutIdempotent(b: Browser)
    ensures Logout(Logout(b)) == Logout(b)
  {
    var once := Logout(b);
    var twice := Logout(once);
    assert twice.store.Keys == once.store.Keys;
    assert twice.store == once.store;
  }

  /** `isTokenExpired()`: a missing or empty expiry counts as expired; a
      stored expiry is passed only when the current instant is strictly
      after it. An unparsable expiry compares false (NaN) and so is not
      expired. */
  function IsTokenExpired(store: Store, now: int, parseDate: string -> Option<int>): (expired: bool)
    ensures !HasTruthyItem(store, ExpiresKey) ==> expired
    ensures HasTruthyItem(store, ExpiresKey) && parseDate(store[ExpiresKey]).Some? ==>
              (expired <==> now > parseDate(store[ExpiresKey]).value)
    ensures HasTruthyItem(store, ExpiresKey) && parseDate(store[ExpiresKey]).None? ==> !expired
  {
    match GetItem(store, ExpiresKey)
    case None => true
    case Some(expiresAt) =>
      if expiresAt == "" then true
      else
        match parseDate(expiresAt)
        case None => false
        case Some(t) => now > t
  }

  /** An expired session stays expired as time goes on. */
  lemma ExpiryIsMonotone(store: Store, now: int, later: int, parseDate: string -> Option<int>)
    requires now <= later
    requires IsTokenExpired(store, now, parseDate)
    ensures IsTokenExpired(store, later, parseDate)
  {
  }

  /** At the very instant of the expiry a parsed token is still valid. */
  lemma NotExpiredAtTheInstant(store: Store, parseDate: string -> Option<int>)
    requires HasTruthyItem(store, ExpiresKey)
    requires parseDate(store[ExpiresKey]).Some?
    ensures !IsTokenExpired(store, parseDate(store[ExpiresKey]).value, parseDate)
  {
  }

  /** `isAuthenticated()`: a non-empty token is stored and it has not expired. */
  function IsAuthenticated(store: Store, now: int, parseDate: string -> Option<int>): (ok: bool)
    ensures ok <==> HasTruthyItem(store, TokenKey) && !IsTokenExpired(store, now, parseDate)
  {
    match GetItem(store, TokenKey)
    case None => false
    case Some(token) => token != "" && !IsTokenExpired(store, now, parseDate)
  }

  /** Logging out always leaves the browser unauthenticated. */
  lemma LoggedOutIsUnauthenticated(b: Browser, now: int, parseDate: string -> Option<int>)
    ensures !IsAuthenticated(Logout(b).store, now, parseDate)
  {
    assert TokenKey !in Logout(b).store;
  }

  datatype UserLookup = UserLookup(browser: Browser, user: JsValue)

  /** `getUser()`: `null` when no (or an empty) user is stored; the parsed
      user when it parses; and on a parse failure a logout and `null`.
      `parseJson` stands for `JSON.parse`, `None` for a SyntaxError. */
  function GetUser(b: Browser, parseJson: string -> Option<JsValue>): (r: UserLookup)
    ensures !HasTruthyItem(b.store, UserKey) ==> r == UserLookup(b, Null)
    ensures HasTruthyItem(b.store, UserKey) && parseJson(b.store[UserKey]).Some? ==>
              r == UserLookup(b, parseJson(b.store[UserKey]).value)
    ensures HasTruthyItem(b.store, UserKey) && parseJson(b.store[UserKey]).None? ==>
              r.browser == Logout(b) && r.user == Null
  {
    match GetItem(b.store, UserKey)
    case None => UserLookup(b, Null)
    case Some(text) =>
      if text == "" then UserLookup(b, Null)
      else
        match parseJson(text)
        case None => UserLookup(Logout(b), Null)
        case Some(v) => UserLookup(b, v)
  }

  const SessionInvalidated: string := "SESSION_INVALIDATED"
  const SessionExpired: string := "SESSION_EXPIRED"
  const InvalidToken: string := "INVALID_TOKEN"

  /** The response's `data.code` is exactly the given string. */
  predicate HasCode(e: HttpError, code: string) {
    ResponseField(e, "code") == Str(code)
  }

  /** The errors on which the global axios interceptor forces a logout. */
  predicate EndsSession(e: HttpError) {
    || (HasStatus(e, 401) && (HasCode(e, SessionInvalidated) || HasCode(e, SessionExpired)))
    || (HasStatus(e, 403) && HasCode(e, InvalidToken))
  }

  /** The interceptor's result: the browser after its side effect, and the
      error it rejects with. */
  datatype Rejection = Rejection(browser: Browser, error: HttpError)

  /** The global axios response-error interceptor: three checks in turn, each
      logging out and rejecting; every other error is rejected untouched. */
  function InterceptSessionError(b: Browser, e: HttpError): (r: Rejection)
    ensures r.error == e
    ensures EndsSession(e) ==> r.browser == Logout(b)
    ensures !EndsSession(e) ==> r.browser == b
  {
    match e.response
    case None => Rejection(b, e)
    case Some(resp) =>
      var code := Prop(resp.data, "code");
      if resp.status == 401 && code == Str(SessionInvalidated) then Rejection(Logout(b), e)
      else if resp.status == 401 && code == Str(SessionExpired) then Rejection(Logout(b), e)
      else if resp.status == 403 && code == Str(InvalidToken) then Rejection(Logout(b), e)
      else Rejection(b, e)
  }
}

=== FILE: text.dfy ===
/** The JavaScript string operations the front-end relies on:
    `startsWith`, `trim`, `split` on one character with its inverse `join`,
    and `replace(/\D/g, '')`. Strings are sequences of code points. */
module Text {

  predicate StartsWith(s: string, prefix: string) {
    |prefix| <= |s| && s[..|prefix|] == prefix
  }

  /** The characters `String.prototype.trim` removes: the ECMAScript
      WhiteSpace and LineTerminator code points. */
  predicate IsWhitespace(c: char) {
    || c == '\t' || c == '\n' || c == '\U{000B}' || c == '\U{000C}' || c == '\r'
    || c == ' ' || c == '\U{00A0}' || c == '\U{1680}'
    || ('\U{2000}' <= c <= '\U{200A}')
    || c == '\U{2028}' || c == '\U{2029}' || c == '\U{202F}' || c == '\U{205F}'
    || c == '\U{3000}' || c == '\U{FEFF}'
  }

  /** Every character of `s` is whitespace (this includes the empty string). */
  predicate Blank(s: string) {
    forall i :: 0 <= i < |s| ==> IsWhitespace(s[i])
  }

  /** The number of whitespace characters `s` starts with. */
  function LeadingBlanks(s: string): (n: nat)
    ensures n <= |s|
    ensures forall i :: 0 <= i < n ==> IsWhitespace(s[i])
    ensures n < |s| ==> !IsWhitespace(s[n])
  {
    if |s| > 0 && IsWhitespace(s[0]) then
      var m := LeadingBlanks(s[1..]);
      assert forall i :: 1 <= i < m + 1 ==> s[i] == s[1..][i - 1];
      m + 1
    else 0
  }

  /** The number of whitespace characters `s` ends with. */
  function TrailingBlanks(s: string): (n: nat)
    ensures n <= |s|
    ensures forall i :: |s| - n <= i < |s| ==> IsWhitespace(s[i])
    ensures n < |s| ==> !IsWhitespace(s[|s| - n - 1])
  {
    if |s| > 0 && IsWhitespace(s[|s| - 1]) then
      var m := TrailingBlanks(s[..|s| - 1]);
      assert forall i :: |s| - 1 - m <= i < |s| - 1 ==> s[i] == s[..|s| - 1][i];
      m + 1
    else 0
  }

  /** `s.trim()`: the slice of `s` between a blank prefix and a blank
      suffix, with no whitespace at either end; empty exactly when `s` is
      blank. */
  function Trim(s: string): (r: string)
    ensures exists i, j :: 0 <= i <= j <= |s| && r == s[i..j] && Blank(s[..i]) && Blank(s[j..])
    ensures r != "" ==> !IsWhitespace(r[0]) && !IsWhitespace(r[|r| - 1])
    ensures r == "" <==> Blank(s)
  {
    var i := LeadingBlanks(s);
    var t := s[i..];
    var r := t[..|t| - TrailingBlanks(t)];
    var j := i + |r|;
    assert r == s[i..j];
    assert s[j..] == t[|r|..];
    assert r != "" ==> r[0] == s[LeadingBlanks(s)];
    assert t == "" ==> Blank(s);
    assert t != "" ==> t[0] == s[LeadingBlanks(s)] && !IsWhitespace(t[0]);
    assert t != "" ==> |r| > 0;
    r
  }

  /** `s.split(sep)` for a one-character separator: the pieces between
      separators, always at least one, none containing the separator. */
  function Split(s: string, sep: char): (parts: seq<string>)
    ensures |parts| >= 1
    ensures forall i :: 0 <= i < |parts| ==> sep !in parts[i]
  {
    if |s| == 0 then [""]
    else
      var rest := Split(s[1..], sep);
      if s[0] == sep then [""] + rest
      else [[s[0]] + rest[0]] + rest[1..]
  }

  /** `parts.join(sep)`. */
  function Join(parts: seq<string>, sep: char): string {
    if |parts| == 0 then ""
    else if |parts| == 1 then parts[0]
    else parts[0] + [sep] + Join(parts[1..], sep)
  }

  /** Joining the pieces of a split gives back the original string. */
  lemma {:induction false} JoinSplit(s: string, sep: char)
    ensures Join(Split(s, sep), sep) == s
  {
    if |s| > 0 {
      var rest := Split(s[1..], sep);
      JoinSplit(s[1..], sep);
      if s[0] == sep {
        assert Split(s, sep) == [""] + rest;
        assert ([""] + rest)[1..] == rest;
      } else {
        var parts := [[s[0]] + rest[0]] + rest[1..];
        assert Split(s, sep) == parts;
        if |rest| == 1 {
          assert Join(parts, sep) == [s[0]] + rest[0];
        } else {
          assert parts[1..] == rest[1..];
          assert Join(rest, sep) == rest[0] + [sep] + Join(rest[1..], sep);
        }
      }
      assert s == [s[0]] + s[1..];
    }
  }

  /** Splitting a piece without separators followed by anything: the piece
      is glued to the first piece of the remainder. */
  lemma {:induction false} SplitAppend(p: string, t: string, sep: char)
    requires sep !in p
    ensures var x := Split(t, sep); Split(p + t, sep) == [p + x[0]] + x[1..]
  {
    if |p| > 0 {
      SplitAppend(p[1..], t, sep);
      assert (p + t)[1..] == p[1..] + t;
      assert (p + t)[0] == p[0];
      assert [p[0]] + (p[1..] + Split(t, sep)[0]) == p + Split(t, sep)[0];
    } else {
      var x := Split(t, sep);
      assert p + t == t;
      assert p + x[0] == x[0];
      assert x == [x[0]] + x[1..];
    }
  }

  /** A string without the separator splits into itself alone. */
  lemma {:induction false} SplitWithoutSeparator(s: string, sep: char)
    requires sep !in s
    ensures Split(s, sep) == [s]
  {
    SplitAppend(s, "", sep);
    assert s + "" == s;
  }

  /** Splitting a join of separator-free pieces gives back the pieces. */
  lemma {:induction false} SplitJoin(parts: seq<string>, sep: char)
    requires |parts| >= 1
    requires forall i :: 0 <= i < |parts| ==> sep !in parts[i]
    ensures Split(Join(parts, sep), sep) == parts
  {
    if |parts| == 1 {
      SplitAppend(parts[0], "", sep);
      assert parts[0] + "" == parts[0];
    } else {
      var u := Join(parts[1..], sep);
      SplitJoin(parts[1..], sep);
      SplitAppend(parts[0], [sep] + u, sep);
      assert parts[0] + [sep] + u == parts[0] + ([sep] + u);
      assert ([sep] + u)[1..] == u;
      var x := Split([sep] + u, sep);
      assert x == [""] + parts[1..];
      assert x[1..] == parts[1..];
      assert parts[0] + x[0] == parts[0];
      assert Join(parts, sep) == parts[0] + [sep] + u;
      assert parts == [parts[0]] + parts[1..];
    }
  }

  predicate IsDigit(c: char) {
    '0' <= c <= '9'
  }

  predicate AllDigits(s: string) {
    forall i :: 0 <= i < |s| ==> IsDigit(s[i])
  }

  /** `parts.join('')`: one character per part when every part has exactly
      one, and only digits when every part has only digits. */
  function Concat(parts: seq<string>): (r: string)
    ensures (forall i :: 0 <= i < |parts| ==> |parts[i]| == 1) ==> |r| == |parts|
    ensures (forall i :: 0 <= i < |parts| ==> AllDigits(parts[i])) ==> AllDigits(r)
  {
    if |parts| == 0 then "" else parts[0] + Concat(parts[1..])
  }

  /** `s.replace(/\D/g, '')`: keeps the ASCII digits of `s`, in order, each
      as many times as it occurs, and drops every other character. */
  function DigitsOnly(s: string): (r: string)
    ensures AllDigits(r)
    ensures |r| <= |s|
    ensures AllDigits(s) ==> r == s
    ensures (forall i :: 0 <= i < |s| ==> !IsDigit(s[i])) ==> r == ""
  {
    if |s| == 0 then ""
    else
      assert s == [s[0]] + s[1..];
      (if IsDigit(s[0]) then [s[0]] else []) + DigitsOnly(s[1..])
  }

  /** Every digit of the input is kept, as many times as it occurs. */
  lemma {:induction false} DigitsOnlyKeepsEveryDigit(s: string)
    ensures forall c :: IsDigit(c) ==> multiset(DigitsOnly(s))[c] == multiset(s)[c]
  {
    if |s| > 0 {
      DigitsOnlyKeepsEveryDigit(s[1..]);
      var head := if IsDigit(s[0]) then [s[0]] else [];
      assert s == [s[0]] + s[1..];
      assert multiset(s) == multiset([s[0]]) + multiset(s[1..]);
      assert multiset(DigitsOnly(s)) == multiset(head) + multiset(DigitsOnly(s[1..]));
    }
  }

  /** Filtering works piece by piece: the digits of a concatenation are the
      digits of the first part followed by those of the second, so the
      digits keep their order. */
  lemma {:induction false} DigitsOnlyAppend(a: string, b: string)
    ensures DigitsOnly(a + b) == DigitsOnly(a) + DigitsOnly(b)
  {
    if |a| > 0 {
      var head := if IsDigit(a[0]) then [a[0]] else [];
      var x, y, z := DigitsOnly(a[1..]), DigitsOnly(b), DigitsOnly(a + b);
      assert z == head + DigitsOnly(a[1..] + b) by {
        assert (a + b)[0] == a[0];
        assert (a + b)[1..] == a[1..] + b;
      }
      DigitsOnlyAppend(a[1..], b);
      assert DigitsOnly(a) == head + x;
      assert head + (x + y) == (head + x) + y;
    } else {
      assert a + b == b;
    }
  }
}

=== FILE: wrappers.dfy ===
/** The optional value used wherever the browser code gets `null`, `undefined`
    or a caught exception back instead of a value. */
module Wrappers {

  datatype Option<+T> = None | Some(value: T)
}
